=== FILE: README.md ===
# Fleet and reporting dashboard: decision rules in Dafny

This project models the decision rules of a corporate fleet and reporting
dashboard. The application is a React front end over a hosted
backend-as-a-service, plus one server function. Its behaviour lives in
small rules inside I/O handlers. The model lifts those rules into pure
functions. Every remote call becomes an input value: the answer the
backend would give.

- `ManageUser` (manage_user.dfy): the `manage-user` server function. It
  maps the HTTP method, the Authorization header, the caller's identity and
  role, the JSON body and the backend's answers to a status, a JSON reply
  and the list of calls actually issued, in order. Those calls are the
  backend calls plus the reading of the request body.
- `Fleets` (fleets.dfy): the fleet hook. It covers fetching and enriching
  a department's machines, the status statistics, and creating and
  updating a machine.
- `Reports` (reports.dfy): the reports hook. It covers listing, creating
  as the signed-in user, updating, and submitting a report.
- `CreateReportDialog`, `AddFleetDialog`: the two creation dialogs. They
  cover their guards, the values they send, and how the form behaves on
  success and on failure.
- `AuthPage` (auth_page.dfy): the sign-in screen. It covers field
  validation, sign-in, the password-reset request, and the choice between
  its three views.
- `Sidebar`, `DepartmentPage`: navigation. They cover the role-gated menu,
  department links and icons, highlighting, the avatar letter, and the
  department lookup by route code.
- Helper modules: `Js` (optional values, JavaScript truthiness, thrown
  values), `Text` (`trim`, `toLowerCase`, `toUpperCase`, `includes`),
  `Remote` (the shapes of backend answers), `Ui` (toasts), and
  `Departments` (the department record).

The handler returns the calls it issued, so "causes no write" has a precise
meaning. It means no `UpdateProfile`, `UpdateRole` or `DeleteUser` call is
in that list. A hook's fetch also reports the query it issued, if any.

## Model

| member | source | states |
|---|---|---|
| `ManageUser.Handle` | supabase/functions/manage-user/index.ts:8-138 | For every request and every backend answer: a write is issued only when the caller passed the gate (not a preflight, a header, an authenticated user, role `admin`). The body is read exactly when the caller passed the gate. Every write is one the body asks for: its user's profile or role with its own values, or its user's deletion. No deletion is issued whose userId equals the caller's id string. A failed profile write means status 500 and no role write. A 500 reply only follows the gate. Its last call is either the body read, when the body was unreadable, or a write that failed. The reply carries the caught message of that error. The status is always one of 200, 400, 401, 403 or 500. |
| `ManageUser.Dispatch` | supabase/functions/manage-user/index.ts:61-128 | Once past the admin gate, every write is one of the body's own profile, role or deletion writes, and no deletion is issued whose userId equals the caller's id string. A failed profile write ends in 500 with no role write. A 500 ends on a write that was issued last and failed, and carries that write's caught message. The calls already issued are kept, and the body is not read again. |
| `ManageUser.Update` | supabase/functions/manage-user/index.ts:61-98 | The update action never deletes. Its only writes are the body user's profile (with the body's name) and role (with the body's role), each with the department or `null`. It answers 200 "User updated successfully" exactly when no issued write fails, and 500 otherwise. A failed profile write ends in 500 before the role write. A 500 ends on the write that failed, and carries that write's caught message. |
| `ManageUser.UpdateSucceedsUnlessAWriteFails` | supabase/functions/manage-user/index.ts:61-98 | For an admin's `update`: if no issued write fails, the reply is 200 "User updated successfully". If one fails, the reply is 500. |
| `ManageUser.PreflightHasNoEffect` | supabase/functions/manage-user/index.ts:10-12 | An OPTIONS request gets 200 with no body, without authentication, body read or write. |
| `ManageUser.MissingHeaderRefused` | supabase/functions/manage-user/index.ts:22-28 | A missing or empty Authorization header gets 401 "No authorization header" before any backend call. |
| `ManageUser.UnauthenticatedRefused` | supabase/functions/manage-user/index.ts:35-41 | An auth error or a missing user gets 401 "Unauthorized" after exactly the user lookup. |
| `ManageUser.NonAdminRefused` | supabase/functions/manage-user/index.ts:44-56 | A failed role read or a role other than `admin` gets 403 "Only administrators can manage users". Only the user and role lookups were issued, so the body was not read and nothing was written. |
| `ManageUser.UpdateWritesWhatIsGiven` | supabase/functions/manage-user/index.ts:61-98 | Under `update`, the profile is written iff `fullName` is defined. The role is written iff `role` is truthy and no profile write failed first. With neither, the reply is 200 with no write. Every write targets the body's `userId` and carries the body's `fullName` or `role`, with its department or `null`. |
| `ManageUser.FalsyDepartmentStoredAsNull` | supabase/functions/manage-user/index.ts:63-92 | Both writes store the department when it is truthy, and `null` otherwise. |
| `ManageUser.ProfileFailureStopsRoleWrite` | supabase/functions/manage-user/index.ts:72-92 | A failed profile write yields 500 with the caught error's message, and no role write is issued. |
| `ManageUser.SelfDeleteRefused` | supabase/functions/manage-user/index.ts:101-108 | `delete` of the caller's own id gets 400 "You cannot delete your own account", and no deletion is issued. |
| `ManageUser.OtherUserDeleted` | supabase/functions/manage-user/index.ts:110-122 | Deleting another user issues exactly that deletion last and answers 200 "User deleted successfully" when the backend accepts it. |
| `ManageUser.UnknownActionRefused` | supabase/functions/manage-user/index.ts:125-128 | Any action other than `update` or `delete` gets 400 "Invalid action" with no write. |
| `ManageUser.ServerErrorReplies` | supabase/functions/manage-user/index.ts:58-136 | For an admin caller, each thrown value ends in 500 with its caught message. That covers an unreadable body, a failed role write (when that write is reached) and a failed deletion of another user. |
| `ManageUser.CallerIsAdmin` | supabase/functions/manage-user/index.ts:10-56 | The gate: not a preflight, a truthy Authorization header, an authenticated user, and a readable role row equal to `admin`. `Handle` reads the body exactly when it holds. |
| `ManageUser.CaughtMessage` | supabase/functions/manage-user/index.ts:130-136 | The 500 reply's message is the thrown `Error`'s message, or "An unexpected error occurred" for anything else thrown. |
| `Fleets.EnrichAll` | src/hooks/useFleets.tsx:49-77 | Enrichment keeps the length, order and every row whole. A row with no operator id gets no operator, and any other row gets its operator's profile. Each machine gets its own maintenance lookup. |
| `Fleets.EnrichmentKeepsRows` | src/hooks/useFleets.tsx:49-77 | Stripping the attached records from the enriched list gives back the query's rows exactly. |
| `Fleets.FetchFleets` | src/hooks/useFleets.tsx:31-85 | Loading always ends false. A query is issued iff a department is given, and it is for that department. No department empties the list. A query error keeps the list and records the error. Otherwise the list is `EnrichAll` of the answer (`null` read as empty), so its rows are exactly the answer's. Any earlier error is kept. |
| `Fleets.NoDepartmentNoQuery` | src/hooks/useFleets.tsx:32-36 | Without a department, the outcome does not depend on the backend's answer. |
| `Fleets.CountStatus` | src/hooks/useFleets.tsx:124-129 | A status count is the number of times that name occurs among the stored statuses (a multiset count). It is at most the list length, and it is zero exactly when no machine has that status. |
| `Fleets.ComputeStats` | src/hooks/useFleets.tsx:124-129 | `operational`, `underMaintenance` and `outOfService` are the numbers of machines whose stored status is "operational", "under_maintenance" and "out_of_service" respectively. Each is at most the total, and the total is the list length. |
| `Fleets.CountsCoverList` | src/hooks/useFleets.tsx:124-129 | The three status counts plus the count of unknown statuses equal the list length. |
| `Fleets.StatsPartition` | src/hooks/useFleets.tsx:124-129 | operational + underMaintenance + outOfService = total exactly when every stored status is one of the three names. |
| `Fleets.CreateFleet` | src/hooks/useFleets.tsx:91-111 | Without a department it rejects with "Department ID required" before any insert. Otherwise it inserts the caller's fields under the hook's department. It then resolves with the stored row, or rejects with the backend's error. The list is refetched exactly when the call resolves. |
| `Fleets.CreateIgnoresSuppliedDepartment` | src/hooks/useFleets.tsx:101-104 | A department the caller supplies never changes the insert. |
| `Fleets.UpdateFleet` | src/hooks/useFleets.tsx:113-121 | The update carries the given id and patch. On success it resolves and the list is refetched. Otherwise it rejects with the backend's error and nothing is refetched. |
| `Fleets.UpdateRowsById` | src/hooks/useFleets.tsx:114-117 | Rows with other ids are unchanged, and the order and length are kept. A row with the id gets each column the patch names. It keeps every column the patch leaves out, as well as its id, department and timestamps (see "Left out" on `updated_at`). An empty patch changes nothing. |
| `Fleets.StatusChangeTouchesOnlyStatus` | src/hooks/useFleets.tsx:113-121 | A status-only `updateFleet` sets that machine's status column to the new status's stored name. Every other column, and every other row, is unchanged. The list is refetched exactly when the update succeeds. |
| `Fleets.UpdateKeepsStatusesValid` | src/hooks/useFleets.tsx:113-129 | If every stored status is one of the three names, it still is after an update, so the statistics still add up. |
| `Reports.FetchReports` | src/hooks/useReports.tsx:23-58 | Signed out: an empty list, loading false, no query. Signed in: a query whose department filter is present exactly when a department is given. The list becomes the answer, with `null` read as empty. A query error keeps the list. |
| `Reports.FetchedListHonoursQuery` | src/hooks/useReports.tsx:42-51 | When the backend's answer honours the query `FetchReports` issued, the list shows only the requested department's reports, newest first. |
| `Reports.CreateReport` | src/hooks/useReports.tsx:64-90 | Signed out: it returns null with no insert. Signed in: it always inserts the fields with `created_by` set to the user's id. A successful insert returns the stored row, and an insert error returns null. The list is refetched exactly when a report is returned. |
| `Reports.UpdateById` | src/hooks/useReports.tsx:94-97 | An update by id patches exactly the rows with that id and keeps the others and the order. |
| `Reports.EmptyPatchChangesNothing` | src/hooks/useReports.tsx:94-97 | A patch that names no column leaves every report as it was. |
| `Reports.UpdateByIdIdempotent` | src/hooks/useReports.tsx:94-97 | Applying the same update by id twice gives the same table as applying it once. |
| `Reports.UpdateReport` | src/hooks/useReports.tsx:92-107 | The update is issued for the given id with the caller's patch. The list is refetched exactly when it succeeds. The call has no result, because a failure is reported and swallowed. |
| `Reports.SubmitReport` | src/hooks/useReports.tsx:109-114 | A submit is an update of that id whose patch sets the status to pending and submitted_at to now. The list is refetched exactly when it succeeds. |
| `Reports.SubmitChangesOnlyStatusAndTime` | src/hooks/useReports.tsx:92-114 | A submit is an update of the given id that makes the report pending with submitted_at = now. Every other column, and every other report, is unchanged. The list is refetched exactly when the update succeeds. |
| `CreateReportDialog.InitialDepartment` | src/components/reports/CreateReportDialog.tsx:39-45 | The preselected department is the dialog's default if truthy, else the profile's if truthy, else the empty string. |
| `CreateReportDialog.Outgoing` | src/components/reports/CreateReportDialog.tsx:60-64 | A draft is sent with status `draft` and no submitted_at. A submit is sent with status `pending` and submitted_at = now. All form fields are passed through untrimmed. |
| `CreateReportDialog.HandleSubmit` | src/components/reports/CreateReportDialog.tsx:47-78 | `createReport` is called iff the title is not blank and a department is chosen, and otherwise nothing changes. When a report comes back, the form resets to its defaults and the dialog closes. Otherwise the form stays as typed. |
| `CreateReportDialog.ButtonsDisabled` | src/components/reports/CreateReportDialog.tsx:184-192 | The buttons are always disabled while submitting. Otherwise they are disabled exactly when `handleSubmit`'s guards would stop a click. |
| `CreateReportDialog.EmptyFormCannotBeSent` | src/components/reports/CreateReportDialog.tsx:39-75 | The empty form, on opening or after a reset, cannot be sent until a title is typed. Its department is empty exactly when neither the default nor the profile department is truthy. |
| `CreateReportDialog.ButtonsMatchGuards` | src/components/reports/CreateReportDialog.tsx:179-195 | When not already submitting, the buttons are enabled exactly when the submit guards pass. |
| `CreateReportDialog.WhitespaceTitleBlocks` | src/components/reports/CreateReportDialog.tsx:50-52 | A title made only of white space never reaches `createReport`. |
| `CreateReportDialog.SignedOutSubmitChangesNothing` | src/hooks/useReports.tsx:64-68 | Submitting while signed out inserts nothing, and the form and dialog stay as they were. |
| `CreateReportDialog.SentReportIsAuthoredByUser` | src/components/reports/CreateReportDialog.tsx:60-64 | What the dialog sends is inserted with the signed-in user as author and the chosen draft/pending status. |
| `AuthPage.FirstIssue` | src/pages/Auth.tsx:13-14 | A password passes iff it has at least 6 characters. An email passes iff it is a valid address. Each failure carries its schema's message. |
| `AuthPage.ValidateField` | src/pages/Auth.tsx:28-39 | It returns true and clears the field's error on success. On failure it returns false and sets the first message. Other fields' entries are untouched. |
| `AuthPage.CurrentView` | src/pages/Auth.tsx:101-198 | The reset-sent view wins over the forgot-password view, which wins over sign-in. |
| `AuthPage.LoginErrorText` | src/pages/Auth.tsx:53-58 | "Invalid login credentials" becomes the friendly text, and any other message passes through unchanged. |
| `AuthPage.RawCredentialsMessageNeverShown` | src/pages/Auth.tsx:53-58 | The toast never shows the raw "Invalid login credentials" text, and mapping a shown text again changes nothing. |
| `AuthPage.HandleLogin` | src/pages/Auth.tsx:41-69 | Both fields are validated without short-circuit. `signIn` is called with the typed credentials iff both pass. It navigates home iff sign-in reports no error. A sign-in error shows the mapped message. Only the error map and the loading flag change, and loading ends false once `signIn` was called. |
| `AuthPage.LoginChecksBothFields` | src/pages/Auth.tsx:44-47 | After a login attempt both fields have an error entry, each empty exactly when that field is valid. |
| `AuthPage.HandleForgotPassword` | src/pages/Auth.tsx:71-99 | Only the email is validated. The reset is requested iff the email is valid. resetEmailSent is set only when the reset call reports no error. Only the error map, the loading flag and resetEmailSent change, so the email and password are kept. |
| `AuthPage.LeaveResetSent` | src/pages/Auth.tsx:125-129 | "Back to Sign In" from the reset-sent view clears both flags and the email, which returns to sign-in. |
| `AuthPage.OpenForgotPassword` | src/pages/Auth.tsx:241 | From sign-in, "Forgot password?" shows the reset form. The typed email, password and errors carry over, and nothing else changes. |
| `AuthPage.LeaveForgotPassword` | src/pages/Auth.tsx:185 | From the reset form, "Back to Sign In" shows sign-in. The email, password and errors are kept, and nothing else changes. |
| `AuthPage.ForgotPasswordRoundTrip` | src/pages/Auth.tsx:185-241 | Opening the reset form from sign-in and going straight back restores the state exactly. |
| `AuthPage.ResetFlowReturnsToSignIn` | src/pages/Auth.tsx:85-129 | A successful reset from the forgot-password view shows the reset-sent view, and going back from it shows sign-in. |
| `AuthPage.ResetSentTakesPrecedence` | src/pages/Auth.tsx:101-141 | While resetEmailSent is set, toggling the forgot-password flag does not change the view. |
| `AddFleetDialog.HandleSubmit` | src/components/fleet/AddFleetDialog.tsx:41-80 | A blank fleet number or machine type shows a validation error, calls nothing and changes nothing. Otherwise the trimmed, non-empty values are sent. On success the form resets to ('', '', operational) and closes. On failure the fields are kept and the message (or "Failed to add fleet") is shown. Loading ends false. |
| `AddFleetDialog.SentValuesAreTrimmed` | src/components/fleet/AddFleetDialog.tsx:55-59 | The values sent have no surrounding white space: trimming them again changes nothing. |
| `AddFleetDialog.SubmitThroughCreateFleet` | src/hooks/useFleets.tsx:97-104 | If `onSubmit` is the fleet hook's `createFleet` (no file shown here wires them together): with no department, nothing is inserted and the form keeps its fields with the hook's error shown. Otherwise the insert carries the trimmed values under the hook's department. |
| `Sidebar.MainNavItems` | src/components/layout/AppSidebar.tsx:67-72 | Dashboard, My Reports and Notifications come first, in that order. User Management is present (last) iff the highest role is `admin`. |
| `Sidebar.DepartmentUrl` | src/components/layout/AppSidebar.tsx:138 | A department link is "/department/" followed by the lower-cased code. |
| `Sidebar.IsActive` | src/components/layout/AppSidebar.tsx:74 | An entry is highlighted exactly when the path equals its URL. A highlighted URL is then also contained in the path, so the exact test is never looser than the group's `includes` test. |
| `Sidebar.MainMenuHighlightsAtMostOne` | src/components/layout/AppSidebar.tsx:67-74 | At most one main menu entry is highlighted for any path, and none on a department's page. |
| `Sidebar.IsDepartmentActive` | src/components/layout/AppSidebar.tsx:75 | The department group is active iff the path contains some department's link as a substring. |
| `Sidebar.OnDepartmentPageOpensGroup` | src/components/layout/AppSidebar.tsx:74-75 | An exactly active department link also makes the group active. |
| `Sidebar.SubstringIsLooserThanExact` | src/components/layout/AppSidebar.tsx:74-75 | "/department/finance" opens the group for code FIN without highlighting FIN's entry. |
| `Sidebar.DepartmentIcon` | src/components/layout/AppSidebar.tsx:47-57 | The icon is looked up by exact code. The FileText fallback is used exactly for codes outside the table. |
| `Sidebar.DepartmentItems` | src/components/layout/AppSidebar.tsx:136-153 | There is one menu entry per department, in order, with its name, link and icon. |
| `Sidebar.AvatarInitial` | src/components/layout/AppSidebar.tsx:166 | It is one character: the upper-cased first letter of the full name, or "U" when the name is missing or empty. It is never a lower-case ASCII letter. |
| `Sidebar.DisplayName` | src/components/layout/AppSidebar.tsx:171 | The name under the avatar is the full name, or "User" when it is missing or empty. It is never empty. |
| `Sidebar.AvatarMatchesDisplayName` | src/components/layout/AppSidebar.tsx:166-171 | The avatar letter is always the upper-cased first character of the displayed name, "U" for "User" included. |
| `DepartmentPage.FindByCode` | src/pages/Department.tsx:13 | The result is the first department whose lower-cased code equals the lower-cased route code. There is none iff no department matches. |
| `DepartmentPage.LookupIgnoresCase` | src/pages/Department.tsx:13 | Route codes that agree in lower case find the same department. |
| `DepartmentPage.SidebarLinkFindsDepartment` | src/components/layout/AppSidebar.tsx:138 | Following a department's sidebar link finds that department, unless an earlier one has the same code up to case. |
| `DepartmentPage.ChoosePage` | src/pages/Department.tsx:15-44 | The page is the loading view exactly while loading, whatever the lookup. After loading, it is not-found iff no department matches, and otherwise it shows the first match. |
| `DepartmentPage.Title` | src/pages/Department.tsx:17-44 | A found department's page is titled with its name. The loading page is titled "Loading..." and the not-found page "Department Not Found". |

## Left out

- Backend calls (`from(...)` queries and writes, `auth.getUser`, `auth.admin.deleteUser`, `signIn`, `resetPasswordForEmail`) are not modelled. Their results are inputs, because their semantics are not visible in this code.
- The server function's client creation and environment variables are not modelled. Neither are CORS header contents, logging, or a network failure thrown by the user or role lookup (which would also reach the 500 handler).
- The email format check of the validation library is an opaque regular expression. It is the parameter `isEmail`.
- Timestamps are opaque. `new Date().toISOString()` is the parameter `now`, and date formatting is presentation.
- Server-side ordering (`.order(...)`) is not computed. `Reports.Answers` states it as a property of the returned list, and the fleet list keeps whatever order the backend returns.
- React state scheduling, effects, `Promise.all` concurrency, toasts' timing, navigation and console output are not modelled. Each handler is one atomic step from the state it reads.
- `Fleets.FetchFleets`: a rejection inside a per-row lookup is not modelled. Lookup errors come back as data `null` and are read as "no record".
- `Reports.UpdateReport`: the patch is limited to status and submitted_at, the only columns the code's own callers change.
- `Fleets.UpdateFleet`: the patch covers the editable columns (fleet number, machine type, status, operator). A `Partial<Fleet>` that also sets the id, department or timestamps, or carries the joined operator and maintenance objects, is not modelled.
- `Fleets.UpdateRowsById`: the model keeps `updated_at` as stored, because the application never writes it. The database may maintain that column itself (for example with an update trigger), which is not modelled, so "every other column is unchanged" covers only the columns the application controls.
- `ManageUser.Handle`: the self-deletion guard compares id strings exactly, as the code does. A differently spelled id for the caller's own account (for example the UUID in upper case, which the database reads as the same value) passes the guard. Whether the deletion then removes the caller depends on the backend, which is not modelled.
- Case conversion (`Text.Lower`, `Text.UpperChar`) covers ASCII letters only, whereas JavaScript maps all of Unicode.
- `Sidebar.AvatarInitial`: `charAt(0)` works on UTF-16 code units, while the model's characters are Unicode scalar values. Characters outside the Basic Multilingual Plane are not modelled. Neither are the letters whose JavaScript upper case is longer than one character (for example "ß" becomes "SS"), so the one-character result holds only for the ASCII case mapping the model uses.
- `Sidebar.DepartmentIcon`: a code that names an `Object.prototype` property (such as "toString") would find an inherited value in the icon table. The model treats the table as a plain map.
- `AuthPage.FirstIssue`: the password length is counted in characters, not UTF-16 code units.
- `DepartmentPage.SidebarLinkFindsDepartment`: route matching and percent-decoding by the router are not modelled. The route code is the text after "/department/".
- JSON numbers in the server function's body are modelled as integers, so NaN and fractions are not covered. Any array or object is one truthy value.
- Presentation-only components and pages (report and fleet tables, KPI cards, dashboard and reports pages, the layout shell) are not modelled. They are static lookups, mock data and layout.

=== FILE: add_fleet_dialog.dfy ===
/**
 The "Add New Fleet Machine" dialog: the required-field check, the trimmed
 values handed to its `onSubmit` callback, and what happens to the form when
 the callback resolves or rejects.
 */
module AddFleetDialog {
  import opened Js
  import Text
  import Ui
  import Fleets
  import Remote

  datatype FleetForm = FleetForm(fleetNumber: string, machineType: string, status: Fleets.FleetStatus, loading: bool, open: bool)

  /** The data handed to `onSubmit`. */
  datatype FleetDraft = FleetDraft(fleetNumber: string, machineType: string, status: Fleets.FleetStatus)

  /** How the `onSubmit` promise ends; `message` is the rejection's
      `message` property, `None` when it has none. */
  datatype SubmitOutcome = Resolved | Rejected(message: Option<string>)

  /** The form state after `handleSubmit`, the data passed to `onSubmit` if
      it was called, and the toast shown. */
  datatype AddStep = AddStep(form: FleetForm, sent: Option<FleetDraft>, toast: Ui.Toast)

  const FallbackError := "Failed to add fleet"

  /** The fields of a freshly reset form. */
  predicate IsReset(form: FleetForm) {
    form.fleetNumber == "" && form.machineType == "" && form.status == Fleets.Operational
  }

  /** `handleSubmit`. A blank fleet number or machine type shows the
      validation toast and changes nothing. Otherwise the trimmed values are
      sent; if the callback resolves the form is reset and closed, if it
      rejects the fields stay as typed and the rejection's message (or the
      fallback) is shown. Either way loading ends false. */
  function HandleSubmit(form: FleetForm, outcome: SubmitOutcome): (r: AddStep)
    ensures r.sent.Some? <==> !Text.IsBlank(form.fleetNumber) && !Text.IsBlank(form.machineType)
    ensures r.sent.None? ==> r.form == form && r.toast.destructive
    ensures r.sent.Some? ==>
              && r.sent.value.fleetNumber == Text.Trim(form.fleetNumber) && r.sent.value.fleetNumber != ""
              && r.sent.value.machineType == Text.Trim(form.machineType) && r.sent.value.machineType != ""
              && r.sent.value.status == form.status
              && !r.form.loading
    ensures r.sent.Some? && outcome.Resolved? ==> IsReset(r.form) && !r.form.open && !r.toast.destructive
    ensures r.sent.Some? && outcome.Rejected? ==>
              && r.form == form.(loading := false)
              && r.toast.description == (if Truthy(outcome.message) then outcome.message.value else FallbackError)
  {
    if Text.IsBlank(form.fleetNumber) || Text.IsBlank(form.machineType) then
      AddStep(form, None, Ui.Toast("Validation Error", "Please fill in all required fields", true))
    else
      var draft := FleetDraft(Text.Trim(form.fleetNumber), Text.Trim(form.machineType), form.status);
      match outcome
      case Resolved =>
        AddStep(FleetForm("", "", Fleets.Operational, false, false), Some(draft),
          Ui.Toast("Fleet Added", form.fleetNumber + " has been registered successfully", false))
      case Rejected(message) =>
        AddStep(form.(loading := false), Some(draft), Ui.Toast("Error", OrElse(message, FallbackError), true))
  }

  /** A submitted value is already trimmed: trimming it again changes
      nothing. */
  lemma SentValuesAreTrimmed(form: FleetForm, outcome: SubmitOutcome)
    requires HandleSubmit(form, outcome).sent.Some?
    ensures var d := HandleSubmit(form, outcome).sent.value;
            Text.Trim(d.fleetNumber) == d.fleetNumber && Text.Trim(d.machineType) == d.machineType
  {
    Text.TrimIdempotent(form.fleetNumber);
    Text.TrimIdempotent(form.machineType);
  }

  /** If `onSubmit` is the fleet hook's `createFleet`: without a department
      the callback rejects with "Department ID required", nothing is inserted
      and the form keeps its fields; with one, the row inserted carries the
      trimmed values under the hook's department. */
  lemma SubmitThroughCreateFleet(form: FleetForm, departmentId: Option<string>, answer: Remote.InsertResult<Fleets.FleetRow>)
    requires !Text.IsBlank(form.fleetNumber) && !Text.IsBlank(form.machineType)
    ensures var data := Fleets.NewFleet(Text.Trim(form.fleetNumber), Text.Trim(form.machineType), Some(form.status), None, None);
            var created := Fleets.CreateFleet(departmentId, data, answer);
            var outcome := if created.result.Ok? then Resolved else Rejected(Some(created.result.error.message));
            var r := HandleSubmit(form, outcome);
            && (!Truthy(departmentId) ==>
                  created.insert.None? && r.form == form.(loading := false)
                  && r.toast.description == Fleets.DepartmentRequiredMessage)
            && (Truthy(departmentId) ==>
                  created.insert.Some? && created.insert.value.departmentId == departmentId.value
                  && created.insert.value.fleetNumber == r.sent.value.fleetNumber
                  && created.insert.value.machineType == r.sent.value.machineType)
  {
  }
}

=== FILE: auth_page.dfy ===
/**
 The sign-in screen: field validation with a per-field error map, the
 sign-in and password-reset handlers, and which of its three views is shown.
 Whether a string is a well-formed email address is decided by the
 validation library; it is a parameter here (`isEmail`).
 */
module AuthPage {
  import opened Js
  import Ui

  datatype Field = EmailField | PasswordField

  /** The two validation schemas of the screen. */
  datatype Schema = EmailSchema | PasswordSchema

  const EmailMessage := "Please enter a valid email address"
  const PasswordMessage := "Password must be at least 6 characters"
  const MinPasswordLength := 6

  /** The first problem the schema reports with `value`, if any. */
  function FirstIssue(schema: Schema, value: string, isEmail: string -> bool): (issue: Option<string>)
    ensures schema == PasswordSchema ==> (issue.None? <==> |value| >= MinPasswordLength)
    ensures schema == EmailSchema ==> (issue.None? <==> isEmail(value))
    ensures issue.Some? ==> issue.value == (if schema == EmailSchema then EmailMessage else PasswordMessage)
  {
    match schema
    case EmailSchema => if isEmail(value) then None else Some(EmailMessage)
    case PasswordSchema => if |value| >= MinPasswordLength then None else Some(PasswordMessage)
  }

  /** The outcome of `validateField`: whether the value passed, and the
      error map after it. */
  datatype Validation = Validation(ok: bool, errors: map<Field, string>)

  /** `validateField`: on success the field's error is cleared (set to the
      empty string), on failure it becomes the schema's first message; the
      other fields' errors are left exactly as they were. */
  function ValidateField(errors: map<Field, string>, field: Field, value: string, schema: Schema, isEmail: string -> bool): (v: Validation)
    ensures v.ok <==> FirstIssue(schema, value, isEmail).None?
    ensures field in v.errors
    ensures v.ok ==> v.errors[field] == ""
    ensures !v.ok ==> v.errors[field] == FirstIssue(schema, value, isEmail).value
    ensures forall f :: f != field ==> (f in v.errors <==> f in errors)
    ensures forall f :: f != field && f in errors ==> v.errors[f] == errors[f]
  {
    match FirstIssue(schema, value, isEmail)
    case None => Validation(true, errors[field := ""])
    case Some(message) => Validation(false, errors[field := message])
  }

  datatype AuthState = AuthState(
    email: string,
    password: string,
    errors: map<Field, string>,
    showForgotPassword: bool,
    resetEmailSent: bool,
    isLoading: bool)

  /** The three screens the page can show. */
  datatype View = SignInView | ForgotPasswordView | ResetSentView

  /** The reset-sent screen wins over the reset form, which wins over
      sign-in. */
  function CurrentView(st: AuthState): (v: View)
    ensures v == ResetSentView <==> st.resetEmailSent
    ensures v == ForgotPasswordView <==> !st.resetEmailSent && st.showForgotPassword
    ensures v == SignInView <==> !st.resetEmailSent && !st.showForgotPassword
  {
    if st.resetEmailSent then ResetSentView
    else if st.showForgotPassword then ForgotPasswordView
    else SignInView
  }

  const InvalidCredentials := "Invalid login credentials"
  const InvalidCredentialsText := "Invalid email or password. Please try again."

  /** The description of the "Login failed" toast. */
  function LoginErrorText(message: string): (text: string)
    ensures message == InvalidCredentials ==> text == InvalidCredentialsText
    ensures message != InvalidCredentials ==> text == message
  {
    if message == InvalidCredentials then InvalidCredentialsText else message
  }

  /** The backend's raw credentials message never reaches the toast, and
      the mapping is stable: mapping a shown text again changes nothing. */
  lemma RawCredentialsMessageNeverShown(message: string)
    ensures LoginErrorText(message) != InvalidCredentials
    ensures LoginErrorText(LoginErrorText(message)) == LoginErrorText(message)
  {
  }

  /** The state after sign-in, the credentials passed to `signIn` if it was
      called, the toast shown, and whether the app navigated home. */
  datatype LoginStep = LoginStep(state: AuthState, signedInWith: Option<(string, string)>, toast: Option<Ui.Toast>, navigatedHome: bool)

  /** `handleLogin`. `signInError` is the message of the error `signIn`
      reports, if any. Both fields are validated (the second even when the
      first fails); `signIn` is called only when both pass. */
  function HandleLogin(st: AuthState, isEmail: string -> bool, signInError: Option<string>): (r: LoginStep)
    ensures var e := ValidateField(st.errors, EmailField, st.email, EmailSchema, isEmail);
            var p := ValidateField(e.errors, PasswordField, st.password, PasswordSchema, isEmail);
            && r.state.errors == p.errors
            && (r.signedInWith.Some? <==> e.ok && p.ok)
    ensures r.signedInWith.Some? ==> r.signedInWith.value == (st.email, st.password)
    ensures r.navigatedHome <==> r.signedInWith.Some? && signInError.None?
    ensures r.signedInWith.Some? && signInError.Some? ==>
              r.toast == Some(Ui.Toast("Login failed", LoginErrorText(signInError.value), true))
    ensures r.signedInWith.None? ==> r.toast.None? && r.state == st.(errors := r.state.errors)
    ensures r.state == st.(errors := r.state.errors, isLoading := r.state.isLoading)
    ensures r.signedInWith.Some? ==> !r.state.isLoading
  {
    var e := ValidateField(st.errors, EmailField, st.email, EmailSchema, isEmail);
    var p := ValidateField(e.errors, PasswordField, st.password, PasswordSchema, isEmail);
    var validated := st.(errors := p.errors);
    if !e.ok || !p.ok then
      LoginStep(validated, None, None, false)
    else
      var after := validated.(isLoading := false);
      match signInError
      case Some(message) =>
        LoginStep(after, Some((st.email, st.password)), Some(Ui.Toast("Login failed", LoginErrorText(message), true)), false)
      case None =>
        LoginStep(after, Some((st.email, st.password)), Some(Ui.Toast("Welcome back!", "You have successfully logged in.", false)), true)
  }

  /** Both fields are always checked: after a sign-in attempt each field
      carries an error entry, and a field that fails shows its message even
      when the other field failed too. */
  lemma LoginChecksBothFields(st: AuthState, isEmail: string -> bool, signInError: Option<string>)
    ensures var errors := HandleLogin(st, isEmail, signInError).state.errors;
            && EmailField in errors && PasswordField in errors
            && (errors[EmailField] == "" <==> isEmail(st.email))
            && (errors[PasswordField] == "" <==> |st.password| >= MinPasswordLength)
  {
  }

  /** The state after a reset request, the address the reset was requested
      for, and the toast shown. */
  datatype ForgotStep = ForgotStep(state: AuthState, requestedFor: Option<string>, toast: Option<Ui.Toast>)

  /** `handleForgotPassword`. `resetError` is the message of the error the
      reset call reports, if any. Only the email is validated; the reset is
      requested only for a valid address, and the page switches to the
      reset-sent screen only when the call reports no error. */
  function HandleForgotPassword(st: AuthState, isEmail: string -> bool, resetError: Option<string>): (r: ForgotStep)
    ensures r.state.errors == ValidateField(st.errors, EmailField, st.email, EmailSchema, isEmail).errors
    ensures PasswordField in st.errors <==> PasswordField in r.state.errors
    ensures r.requestedFor.Some? <==> isEmail(st.email)
    ensures r.requestedFor.Some? ==> r.requestedFor.value == st.email
    ensures r.state.resetEmailSent <==> st.resetEmailSent || (r.requestedFor.Some? && resetError.None?)
    ensures r.state.email == st.email && r.state.showForgotPassword == st.showForgotPassword
    ensures r.state.password == st.password
    ensures r.state == st.(errors := r.state.errors, isLoading := r.state.isLoading, resetEmailSent := r.state.resetEmailSent)
    ensures r.requestedFor.Some? ==> !r.state.isLoading
  {
    var e := ValidateField(st.errors, EmailField, st.email, EmailSchema, isEmail);
    var validated := st.(errors := e.errors);
    if !e.ok then
      ForgotStep(validated, None, None)
    else
      var after := validated.(isLoading := false);
      match resetError
      case Some(message) =>
        ForgotStep(after, Some(st.email), Some(Ui.Toast("Error", message, true)))
      case None =>
        ForgotStep(after.(resetEmailSent := true), Some(st.email),
          Some(Ui.Toast("Email sent", "Check your inbox for the password reset link.", false)))
  }

  /** "Forgot password?" on the sign-in screen: the reset form comes up with
      the email already typed; nothing else changes. */
  function OpenForgotPassword(st: AuthState): (r: AuthState)
    ensures CurrentView(st) == SignInView ==> CurrentView(r) == ForgotPasswordView
    ensures r.email == st.email && r.password == st.password && r.errors == st.errors
    ensures r.resetEmailSent == st.resetEmailSent && r.isLoading == st.isLoading
  {
    st.(showForgotPassword := true)
  }

  /** "Back to Sign In" on the reset form: sign-in comes back with the email
      and password as they were; nothing else changes. */
  function LeaveForgotPassword(st: AuthState): (r: AuthState)
    ensures CurrentView(st) == ForgotPasswordView ==> CurrentView(r) == SignInView
    ensures r.email == st.email && r.password == st.password && r.errors == st.errors
    ensures r.resetEmailSent == st.resetEmailSent && r.isLoading == st.isLoading
  {
    st.(showForgotPassword := false)
  }

  /** Opening the reset form from sign-in and going straight back restores
      the state exactly. */
  lemma ForgotPasswordRoundTrip(st: AuthState)
    requires CurrentView(st) == SignInView
    ensures LeaveForgotPassword(OpenForgotPassword(st)) == st
  {
  }

  /** "Back to Sign In" on the reset-sent screen: both flags and the email
      are cleared; the password and the error map are kept. */
  function LeaveResetSent(st: AuthState): (r: AuthState)
    ensures CurrentView(r) == SignInView
    ensures r.email == "" && r.password == st.password && r.errors == st.errors
  {
    st.(showForgotPassword := false, resetEmailSent := false, email := "")
  }

  /** A successful reset request from the reset form brings up the
      reset-sent screen; from there "Back to Sign In" returns to sign-in. */
  lemma ResetFlowReturnsToSignIn(st: AuthState, isEmail: string -> bool)
    requires CurrentView(st) == ForgotPasswordView && isEmail(st.email)
    ensures var sent := HandleForgotPassword(st, isEmail, None).state;
            CurrentView(sent) == ResetSentView && CurrentView(LeaveResetSent(sent)) == SignInView
  {
  }

  /** The reset-sent screen stays up whatever the reset-form flag says. */
  lemma ResetSentTakesPrecedence(st: AuthState)
    requires st.resetEmailSent
    ensures CurrentView(OpenForgotPassword(st)) == ResetSentView
    ensures CurrentView(LeaveForgotPassword(st)) == ResetSentView
  {
  }
}

=== FILE: create_report_dialog.dfy ===
/**
 The "Create New Report" dialog: its form, the guards in front of the
 `createReport` call, the draft/submit choice, and what happens to the form
 once the call returns.
 */
module CreateReportDialog {
  import opened Js
  import Text
  import Reports
  import Remote

  datatype FormData = FormData(
    title: string,
    description: string,
    reportType: Reports.ReportType,
    priority: Reports.Priority,
    departmentId: string)

  /** The department preselected in an empty form: the dialog's default
      department, else the user's own, else none (the empty string). */
  function InitialDepartment(defaultDepartmentId: Option<string>, profileDepartmentId: Option<string>): (d: string)
    ensures Truthy(defaultDepartmentId) ==> d == defaultDepartmentId.value
    ensures !Truthy(defaultDepartmentId) && Truthy(profileDepartmentId) ==> d == profileDepartmentId.value
    ensures !Truthy(defaultDepartmentId) && !Truthy(profileDepartmentId) ==> d == ""
  {
    OrElse(defaultDepartmentId, OrElse(profileDepartmentId, ""))
  }

  /** The form when the dialog opens and after a successful create. */
  function EmptyForm(defaultDepartmentId: Option<string>, profileDepartmentId: Option<string>): FormData {
    FormData("", "", Reports.General, Reports.Medium, InitialDepartment(defaultDepartmentId, profileDepartmentId))
  }

  /** The two guards of `handleSubmit`: a title that is not blank and a
      chosen department. */
  predicate CanSubmit(form: FormData) {
    !Text.IsBlank(form.title) && form.departmentId != ""
  }

  /** Whether "Save Draft" and "Submit for Review" are disabled: always while
      a submission is under way, and otherwise exactly when a click would be
      stopped by `handleSubmit`'s guards. */
  function ButtonsDisabled(isSubmitting: bool, form: FormData): (disabled: bool)
    ensures isSubmitting ==> disabled
    ensures !isSubmitting ==> (disabled <==> !CanSubmit(form))
  {
    isSubmitting || Text.IsBlank(form.title) || form.departmentId == ""
  }

  /** The report handed to `createReport`: the form as it stands (the title
      is not trimmed), as a draft with no submission time, or pending with
      the submission time `now`. */
  function Outgoing(form: FormData, asDraft: bool, now: Reports.Timestamp): (r: Reports.NewReport)
    ensures asDraft ==> r.status == Reports.Draft && r.submittedAt.None?
    ensures !asDraft ==> r.status == Reports.Pending && r.submittedAt == Some(now)
    ensures r.title == form.title && r.description == form.description
    ensures r.reportType == form.reportType && r.priority == form.priority
    ensures r.departmentId == form.departmentId
  {
    Reports.NewReport(
      form.title, form.description, form.reportType, form.priority, form.departmentId,
      if asDraft then Reports.Draft else Reports.Pending,
      if asDraft then None else Some(now))
  }

  datatype DialogState = DialogState(form: FormData, isSubmitting: bool, open: bool)

  /** The state after `handleSubmit`, and the report passed to
      `createReport` if it was called. */
  datatype SubmitStep = SubmitStep(state: DialogState, sent: Option<Reports.NewReport>)

  /** `handleSubmit(asDraft)`. `created` is what `createReport` returns.
      When a guard fails nothing happens. Otherwise the report is sent; if
      a report comes back the form is emptied and the dialog closed, else
      the form is kept as typed. */
  function HandleSubmit(
    st: DialogState, asDraft: bool, now: Reports.Timestamp,
    defaultDepartmentId: Option<string>, profileDepartmentId: Option<string>,
    created: Option<Reports.Report>): (r: SubmitStep)
    ensures r.sent.Some? <==> CanSubmit(st.form)
    ensures r.sent.Some? ==> r.sent.value == Outgoing(st.form, asDraft, now) && !r.state.isSubmitting
    ensures r.sent.None? ==> r.state == st
    ensures r.sent.Some? && created.Some? ==>
              r.state.form == EmptyForm(defaultDepartmentId, profileDepartmentId) && !r.state.open
    ensures r.sent.Some? && created.None? ==> r.state.form == st.form && r.state.open == st.open
  {
    if Text.IsBlank(st.form.title) || st.form.departmentId == "" then
      SubmitStep(st, None)
    else
      var sent := Outgoing(st.form, asDraft, now);
      if created.Some? then
        SubmitStep(DialogState(EmptyForm(defaultDepartmentId, profileDepartmentId), false, false), Some(sent))
      else
        SubmitStep(st.(isSubmitting := false), Some(sent))
  }

  /** The buttons are enabled exactly when a click would reach
      `createReport`. */
  lemma ButtonsMatchGuards(form: FormData)
    ensures !ButtonsDisabled(false, form) <==> CanSubmit(form)
  {
  }

  /** The empty form cannot be sent: its title is blank, whichever
      department it preselects. */
  lemma EmptyFormCannotBeSent(defaultDepartmentId: Option<string>, profileDepartmentId: Option<string>)
    ensures !CanSubmit(EmptyForm(defaultDepartmentId, profileDepartmentId))
    ensures InitialDepartment(defaultDepartmentId, profileDepartmentId) == "" <==>
              !Truthy(defaultDepartmentId) && !Truthy(profileDepartmentId)
  {
  }

  /** A title of white space only never reaches `createReport`. */
  lemma WhitespaceTitleBlocks(st: DialogState, asDraft: bool, now: Reports.Timestamp,
    defaultDepartmentId: Option<string>, profileDepartmentId: Option<string>, created: Option<Reports.Report>)
    requires forall i :: 0 <= i < |st.form.title| ==> Text.IsSpace(st.form.title[i])
    ensures HandleSubmit(st, asDraft, now, defaultDepartmentId, profileDepartmentId, created).sent.None?
  {
    Text.BlankIffAllSpace(st.form.title);
  }

  /** Submitting while signed out: `createReport` inserts nothing and
      returns null, so the form stays as typed and the dialog stays open. */
  lemma SignedOutSubmitChangesNothing(st: DialogState, asDraft: bool, now: Reports.Timestamp,
    defaultDepartmentId: Option<string>, profileDepartmentId: Option<string>,
    answer: Remote.InsertResult<Reports.Report>)
    requires CanSubmit(st.form)
    ensures var created := Reports.CreateReport(None, Outgoing(st.form, asDraft, now), answer);
            var r := HandleSubmit(st, asDraft, now, defaultDepartmentId, profileDepartmentId, created.result);
            created.insert.None? && r.state.form == st.form && r.state.open == st.open
  {
  }

  /** Whatever the dialog sends is stored with the signed-in user as its
      author and the draft/pending status it chose. */
  lemma SentReportIsAuthoredByUser(st: DialogState, asDraft: bool, now: Reports.Timestamp,
    user: Reports.User, answer: Remote.InsertResult<Reports.Report>)
    requires CanSubmit(st.form)
    ensures var insert := Reports.CreateReport(Some(user), Outgoing(st.form, asDraft, now), answer).insert;
            && insert.Some? && insert.value.createdBy == user.id
            && insert.value.fields.status == (if asDraft then Reports.Draft else Reports.Pending)
            && (insert.value.fields.submittedAt.None? <==> asDraft)
  {
  }
}

=== FILE: department_page.dfy ===
/**
 The department page: the department is found by the code in the URL,
 compared without regard to case, and the page shows a loading state, a
 not-found state or the department.
 */
module DepartmentPage {
  import opened Js
  import Text
  import opened Departments
  import Sidebar

  /** The route's code names the department: both in lower case agree. A
      missing route code matches nothing. */
  predicate CodeMatches(d: Department, code: Option<string>) {
    code.Some? && Text.Lower(d.code) == Text.Lower(code.value)
  }

  /** `departments[i]` is the first department the code names. */
  ghost predicate FirstMatchAt(departments: seq<Department>, code: Option<string>, i: nat) {
    && i < |departments|
    && CodeMatches(departments[i], code)
    && forall j :: 0 <= j < i ==> !CodeMatches(departments[j], code)
  }

  /** `departments.find(...)`: the first department the code names, if any. */
  function FindByCode(departments: seq<Department>, code: Option<string>): (r: Option<Department>)
    ensures r.None? <==> forall i :: 0 <= i < |departments| ==> !CodeMatches(departments[i], code)
    ensures r.Some? ==> exists i: nat :: FirstMatchAt(departments, code, i) && departments[i] == r.value
  {
    if departments == [] then None
    else if CodeMatches(departments[0], code) then
      assert FirstMatchAt(departments, code, 0);
      Some(departments[0])
    else
      var r := FindByCode(departments[1..], code);
      assert forall i: nat :: FirstMatchAt(departments[1..], code, i) ==> FirstMatchAt(departments, code, i + 1);
      r
  }

  /** Codes that agree in lower case find the same department. */
  lemma {:induction false} LookupIgnoresCase(departments: seq<Department>, c1: string, c2: string)
    requires Text.Lower(c1) == Text.Lower(c2)
    ensures FindByCode(departments, Some(c1)) == FindByCode(departments, Some(c2))
  {
    if departments != [] {
      LookupIgnoresCase(departments[1..], c1, c2);
    }
  }

  /** The code the department route reads from a department link. */
  function RouteCode(url: string): string
    requires Text.StartsWith(url, Sidebar.DepartmentPrefix)
  {
    url[|Sidebar.DepartmentPrefix|..]
  }

  /** Following a department's sidebar link opens that department's page,
      provided no earlier department has the same code up to case. */
  lemma SidebarLinkFindsDepartment(departments: seq<Department>, i: nat)
    requires i < |departments|
    requires forall j :: 0 <= j < i ==> Text.Lower(departments[j].code) != Text.Lower(departments[i].code)
    ensures FindByCode(departments, Some(RouteCode(Sidebar.DepartmentUrl(departments[i].code)))) == Some(departments[i])
  {
    var code := Some(RouteCode(Sidebar.DepartmentUrl(departments[i].code)));
    Text.LowerIdempotent(departments[i].code);
    assert FirstMatchAt(departments, code, i);
    var r := FindByCode(departments, code);
    var k: nat :| FirstMatchAt(departments, code, k) && departments[k] == r.value;
    assert k == i;
  }

  /** What the page shows. */
  datatype Page = Loading | NotFound | Found(department: Department)

  /** While the list loads nothing else is decided; then an unknown code
      gives the not-found page and a known one its department. */
  function ChoosePage(loading: bool, departments: seq<Department>, code: Option<string>): (p: Page)
    ensures p == Loading <==> loading
    ensures !loading ==> (p == NotFound <==> forall i :: 0 <= i < |departments| ==> !CodeMatches(departments[i], code))
    ensures p.Found? ==> exists i: nat :: FirstMatchAt(departments, code, i) && departments[i] == p.department
  {
    if loading then Loading
    else match FindByCode(departments, code)
      case None => NotFound
      case Some(d) => Found(d)
  }

  /** The title of the layout around the page. */
  function Title(p: Page): (t: string)
    ensures p.Found? ==> t == p.department.name
    ensures p == NotFound ==> t == "Department Not Found"
    ensures p == Loading ==> t == "Loading..."
  {
    match p
    case Loading => "Loading..."
    case NotFound => "Department Not Found"
    case Found(d) => d.name
  }
}

=== FILE: departments.dfy ===
/** The departments list both the sidebar and the department page read. */
module Departments {
  import opened Js

  /** A row of the `departments` table. */
  datatype Department = Department(id: string, name: string, code: string, description: Option<string>)
}

=== FILE: fleets.dfy ===
/**
 The fleet hook of one department: fetching its machines and enriching each
 with its operator and last maintenance record, the status statistics shown
 on the fleet page, and creating or updating a machine. The backend's answers
 are parameters: the outcome of the list query, and lookup functions from an
 operator id to the operator's profile and from a machine id to its latest
 maintenance record (`None` when the lookup returns no row or an error).
 */
module Fleets {
  import opened Js
  import opened Remote

  /** The three statuses a machine is meant to have. */
  datatype FleetStatus = Operational | UnderMaintenance | OutOfService

  /** The text stored in the `status` column for each status. */
  function StatusName(s: FleetStatus): string {
    match s
    case Operational => "operational"
    case UnderMaintenance => "under_maintenance"
    case OutOfService => "out_of_service"
  }

  /** A stored status is one of the three names. The hook casts the column
      to the status type without checking it. */
  predicate IsFleetStatus(name: string) {
    name == "operational" || name == "under_maintenance" || name == "out_of_service"
  }

  /** A row of the `fleets` table. `status` is the stored text. */
  datatype FleetRow = FleetRow(
    id: string,
    fleetNumber: string,
    machineType: string,
    status: string,
    operatorId: Option<string>,
    departmentId: string,
    createdAt: string,
    updatedAt: string)

  datatype Operator = Operator(fullName: Option<string>, email: string)

  datatype Maintenance = Maintenance(date: string, nextServiceDue: Option<string>, remarks: Option<string>)

  /** A row with the two related records the hook attaches to it. */
  datatype Fleet = Fleet(row: FleetRow, operator: Option<Operator>, lastMaintenance: Option<Maintenance>)

  /** Attaching the related records to one row: the operator is looked up
      only when the row has a (non-empty) operator id. */
  function Enrich(row: FleetRow, operators: string -> Option<Operator>, maintenance: string -> Option<Maintenance>): Fleet {
    Fleet(row, if Truthy(row.operatorId) then operators(row.operatorId.value) else None, maintenance(row.id))
  }

  /** Enriching every row of the query's answer. The result is the input
      list in the same order, each row kept whole, with no operator where
      the row names none, the named operator's profile otherwise, and the
      machine's own maintenance record. */
  function EnrichAll(rows: seq<FleetRow>, operators: string -> Option<Operator>, maintenance: string -> Option<Maintenance>): (r: seq<Fleet>)
    ensures |r| == |rows|
    ensures forall i :: 0 <= i < |rows| ==> r[i].row == rows[i]
    ensures forall i :: 0 <= i < |rows| && !Truthy(rows[i].operatorId) ==> r[i].operator.None?
    ensures forall i :: 0 <= i < |rows| && Truthy(rows[i].operatorId) ==> r[i].operator == operators(rows[i].operatorId.value)
    ensures forall i :: 0 <= i < |rows| ==> r[i].lastMaintenance == maintenance(rows[i].id)
  {
    if rows == [] then []
    else [Enrich(rows[0], operators, maintenance)] + EnrichAll(rows[1..], operators, maintenance)
  }

  /** The rows underneath a list of enriched machines. */
  function Rows(fleets: seq<Fleet>): (r: seq<FleetRow>)
    ensures |r| == |fleets|
    ensures forall i :: 0 <= i < |fleets| ==> r[i] == fleets[i].row
  {
    seq(|fleets|, i requires 0 <= i < |fleets| => fleets[i].row)
  }

  /** Enrichment only adds: stripping what it attached gives back the
      query's rows, in their order. */
  lemma EnrichmentKeepsRows(rows: seq<FleetRow>, operators: string -> Option<Operator>, maintenance: string -> Option<Maintenance>)
    ensures Rows(EnrichAll(rows, operators, maintenance)) == rows
  {
  }

  /** The hook's state. */
  datatype FleetsState = FleetsState(fleets: seq<Fleet>, loading: bool, error: Option<Thrown>)

  /** The list query issued: the department's machines by fleet number. */
  datatype FleetQuery = FleetQuery(departmentId: string)

  /** The state after a fetch, and the query it issued (if any). */
  datatype FleetsFetch = FleetsFetch(state: FleetsState, query: Option<FleetQuery>)

  /** `fetchFleets`. Without a department the list is emptied and nothing
      is queried; on a query error the list stays as it was and the error
      is recorded; otherwise the list becomes the enriched answer. A
      successful fetch does not clear an earlier error. Loading ends false. */
  function FetchFleets(
    departmentId: Option<string>, st: FleetsState, answer: QueryResult<FleetRow>,
    operators: string -> Option<Operator>, maintenance: string -> Option<Maintenance>): (r: FleetsFetch)
    ensures !r.state.loading
    ensures r.query.Some? <==> Truthy(departmentId)
    ensures r.query.Some? ==> r.query.value.departmentId == departmentId.value
    ensures !Truthy(departmentId) ==> r.state.fleets == [] && r.state.error == st.error
    ensures Truthy(departmentId) && answer.QueryFailed? ==>
              r.state.fleets == st.fleets && r.state.error == Some(answer.error)
    ensures Truthy(departmentId) && answer.Answered? ==>
              r.state.fleets == EnrichAll(answer.data.GetOr([]), operators, maintenance)
              && Rows(r.state.fleets) == answer.data.GetOr([]) && r.state.error == st.error
  {
    if !Truthy(departmentId) then
      FleetsFetch(FleetsState([], false, st.error), None)
    else
      var query := Some(FleetQuery(departmentId.value));
      match answer
      case QueryFailed(e) =>
        FleetsFetch(FleetsState(st.fleets, false, Some(e)), query)
      case Answered(data) =>
        var fleets := EnrichAll(data.GetOr([]), operators, maintenance);
        EnrichmentKeepsRows(data.GetOr([]), operators, maintenance);
        FleetsFetch(FleetsState(fleets, false, st.error), query)
  }

  /** With no department the query's answer plays no part: the outcome is
      the same whatever the backend would have said. */
  lemma NoDepartmentNoQuery(
    departmentId: Option<string>, st: FleetsState, a1: QueryResult<FleetRow>, a2: QueryResult<FleetRow>,
    operators: string -> Option<Operator>, maintenance: string -> Option<Maintenance>)
    requires !Truthy(departmentId)
    ensures FetchFleets(departmentId, st, a1, operators, maintenance) == FetchFleets(departmentId, st, a2, operators, maintenance)
  {
  }

  /** The stored status of every machine, in list order. */
  function Statuses(fleets: seq<Fleet>): (r: seq<string>)
    ensures |r| == |fleets|
    ensures forall i :: 0 <= i < |fleets| ==> r[i] == fleets[i].row.status
  {
    seq(|fleets|, i requires 0 <= i < |fleets| => fleets[i].row.status)
  }

  /** How many machines have the stored status `name`: the number of times
      `name` occurs among the stored statuses. */
  function CountStatus(fleets: seq<Fleet>, name: string): (n: nat)
    ensures n <= |fleets|
    ensures n == multiset(Statuses(fleets))[name]
    ensures n == 0 <==> forall i :: 0 <= i < |fleets| ==> fleets[i].row.status != name
  {
    if fleets == [] then 0
    else
      assert Statuses(fleets) == [fleets[0].row.status] + Statuses(fleets[1..]);
      (if fleets[0].row.status == name then 1 else 0) + CountStatus(fleets[1..], name)
  }

  /** How many machines have a stored status that is none of the three. */
  function CountUnknown(fleets: seq<Fleet>): (n: nat)
    ensures n <= |fleets|
    ensures n == 0 <==> forall i :: 0 <= i < |fleets| ==> IsFleetStatus(fleets[i].row.status)
  {
    if fleets == [] then 0
    else (if IsFleetStatus(fleets[0].row.status) then 0 else 1) + CountUnknown(fleets[1..])
  }

  datatype Stats = Stats(operational: nat, underMaintenance: nat, outOfService: nat, total: nat)

  /** The statistics shown above the fleet list. */
  function ComputeStats(fleets: seq<Fleet>): (s: Stats)
    ensures s.operational <= s.total && s.underMaintenance <= s.total && s.outOfService <= s.total
    ensures s.total == |fleets|
    ensures s.operational == multiset(Statuses(fleets))[StatusName(Operational)]
    ensures s.underMaintenance == multiset(Statuses(fleets))[StatusName(UnderMaintenance)]
    ensures s.outOfService == multiset(Statuses(fleets))[StatusName(OutOfService)]
  {
    Stats(
      CountStatus(fleets, "operational"),
      CountStatus(fleets, "under_maintenance"),
      CountStatus(fleets, "out_of_service"),
      |fleets|)
  }

  /** Every machine is counted under exactly one of the three statuses, or
      under none when its stored status is unknown. */
  lemma {:induction false} CountsCoverList(fleets: seq<Fleet>)
    ensures CountStatus(fleets, "operational") + CountStatus(fleets, "under_maintenance")
            + CountStatus(fleets, "out_of_service") + CountUnknown(fleets) == |fleets|
  {
    if fleets != [] {
      CountsCoverList(fleets[1..]);
    }
  }

  /** The three counts add up to the total exactly when every stored status
      is one of the three names. */
  lemma StatsPartition(fleets: seq<Fleet>)
    ensures var s := ComputeStats(fleets);
            s.operational + s.underMaintenance + s.outOfService == s.total
            <==> forall i :: 0 <= i < |fleets| ==> IsFleetStatus(fleets[i].row.status)
  {
    CountsCoverList(fleets);
  }

  /** What a caller passes to `createFleet`. `departmentId` stands for a
      department the caller may have spread into the object. */
  datatype NewFleet = NewFleet(
    fleetNumber: string,
    machineType: string,
    status: Option<FleetStatus>,
    operatorId: Option<string>,
    departmentId: Option<string>)

  /** The row inserted. */
  datatype FleetInsert = FleetInsert(
    fleetNumber: string,
    machineType: string,
    status: Option<FleetStatus>,
    operatorId: Option<string>,
    departmentId: string)

  /** The insert issued, what the call resolves or rejects with, and whether
      the list was fetched again. */
  datatype CreateFleetStep = CreateFleetStep(insert: Option<FleetInsert>, result: Result<FleetRow>, refetched: bool)

  const DepartmentRequiredMessage := "Department ID required"

  /** `createFleet`: refuse without a department before inserting; insert
      the caller's fields under the hook's department; on success fetch the
      list again and resolve with the stored row. */
  function CreateFleet(departmentId: Option<string>, data: NewFleet, answer: InsertResult<FleetRow>): (r: CreateFleetStep)
    ensures !Truthy(departmentId) ==>
              r.insert.None? && r.result == Err(Thrown(true, DepartmentRequiredMessage)) && !r.refetched
    ensures Truthy(departmentId) ==>
              r.insert.Some? && r.insert.value.departmentId == departmentId.value
              && r.insert.value.fleetNumber == data.fleetNumber
              && r.insert.value.machineType == data.machineType
              && r.insert.value.status == data.status
              && r.insert.value.operatorId == data.operatorId
    ensures Truthy(departmentId) && answer.Inserted? ==> r.result == Ok(answer.row)
    ensures Truthy(departmentId) && answer.InsertFailed? ==> r.result == Err(answer.error)
    ensures r.refetched <==> r.result.Ok?
  {
    if !Truthy(departmentId) then
      CreateFleetStep(None, Err(Thrown(true, DepartmentRequiredMessage)), false)
    else
      var insert := FleetInsert(data.fleetNumber, data.machineType, data.status, data.operatorId, departmentId.value);
      match answer
      case InsertFailed(e) => CreateFleetStep(Some(insert), Err(e), false)
      case Inserted(row) => CreateFleetStep(Some(insert), Ok(row), true)
  }

  /** The department a caller supplies never reaches the table: the insert
      is the same whatever department the data carries. */
  lemma CreateIgnoresSuppliedDepartment(departmentId: Option<string>, data: NewFleet, other: Option<string>, answer: InsertResult<FleetRow>)
    ensures CreateFleet(departmentId, data, answer) == CreateFleet(departmentId, data.(departmentId := other), answer)
  {
  }

  /** The editable columns a caller may pass to `updateFleet`; `None`
      leaves a column alone. `operatorId` may be set to `null`. */
  datatype FleetPatch = FleetPatch(
    fleetNumber: Option<string>,
    machineType: Option<string>,
    status: Option<FleetStatus>,
    operatorId: Option<Option<string>>)

  /** The effect of the patch on one stored row. */
  function ApplyFleetPatch(row: FleetRow, p: FleetPatch): FleetRow {
    row.(fleetNumber := p.fleetNumber.GetOr(row.fleetNumber),
         machineType := p.machineType.GetOr(row.machineType),
         status := if p.status.Some? then StatusName(p.status.value) else row.status,
         operatorId := p.operatorId.GetOr(row.operatorId))
  }

  /** `.update(patch).eq('id', id)` on the table: the rows with that id get
      the patched columns and keep every other column; the other rows and
      the order are kept. */
  function UpdateRowsById(rows: seq<FleetRow>, id: string, p: FleetPatch): (r: seq<FleetRow>)
    ensures |r| == |rows|
    ensures forall i :: 0 <= i < |rows| && rows[i].id != id ==> r[i] == rows[i]
    ensures forall i :: 0 <= i < |rows| && rows[i].id == id ==>
              && (p.fleetNumber.Some? ==> r[i].fleetNumber == p.fleetNumber.value)
              && (p.machineType.Some? ==> r[i].machineType == p.machineType.value)
              && (p.status.Some? ==> r[i].status == StatusName(p.status.value) && IsFleetStatus(r[i].status))
              && (p.operatorId.Some? ==> r[i].operatorId == p.operatorId.value)
              && r[i].id == rows[i].id && r[i].departmentId == rows[i].departmentId
              && r[i].createdAt == rows[i].createdAt && r[i].updatedAt == rows[i].updatedAt
              && (p.fleetNumber.None? ==> r[i].fleetNumber == rows[i].fleetNumber)
              && (p.machineType.None? ==> r[i].machineType == rows[i].machineType)
              && (p.status.None? ==> r[i].status == rows[i].status)
              && (p.operatorId.None? ==> r[i].operatorId == rows[i].operatorId)
    ensures forall i :: 0 <= i < |rows| && rows[i].id == id && p == FleetPatch(None, None, None, None) ==> r[i] == rows[i]
  {
    seq(|rows|, i requires 0 <= i < |rows| => if rows[i].id == id then ApplyFleetPatch(rows[i], p) else rows[i])
  }

  /** `updateFleet(id, patch)`: the update of that id with the caller's
      patch is issued; the list is fetched again and the call resolves only
      when it succeeds, otherwise the call rejects with the backend's
      error. */
  datatype UpdateFleetStep = UpdateFleetStep(updatedId: string, patch: FleetPatch, result: Result<()>, refetched: bool)

  function UpdateFleet(id: string, p: FleetPatch, answer: Outcome): (r: UpdateFleetStep)
    ensures r.updatedId == id && r.patch == p
    ensures r.refetched <==> answer.Done?
    ensures answer.Done? ==> r.result == Ok(())
    ensures answer.Failed? ==> r.result == Err(answer.error)
  {
    match answer
    case Done => UpdateFleetStep(id, p, Ok(()), true)
    case Failed(e) => UpdateFleetStep(id, p, Err(e), false)
  }

  /** Changing a machine's status through `updateFleet`: the update issued
      sets exactly the status column of that machine's rows, to the stored
      name of the new status, and leaves every other row alone; the list is
      fetched again exactly when it succeeds. */
  lemma StatusChangeTouchesOnlyStatus(rows: seq<FleetRow>, id: string, status: FleetStatus, answer: Outcome)
    ensures var step := UpdateFleet(id, FleetPatch(None, None, Some(status), None), answer);
            var after := UpdateRowsById(rows, step.updatedId, step.patch);
            && (step.refetched <==> answer.Done?)
            && |after| == |rows|
            && (forall i :: 0 <= i < |rows| && rows[i].id == id ==> after[i] == rows[i].(status := StatusName(status)))
            && (forall i :: 0 <= i < |rows| && rows[i].id != id ==> after[i] == rows[i])
  {
  }

  /** A status written through `updateFleet` is always one the statistics
      count: updating keeps every stored status valid. */
  lemma UpdateKeepsStatusesValid(rows: seq<FleetRow>, id: string, p: FleetPatch)
    requires forall i :: 0 <= i < |rows| ==> IsFleetStatus(rows[i].status)
    ensures var after := UpdateRowsById(rows, id, p);
            forall i :: 0 <= i < |after| ==> IsFleetStatus(after[i].status)
  {
  }
}

=== FILE: js.dfy ===
/**
 The few JavaScript value semantics the application's decision rules depend on:
 values that may be null or undefined, truthiness (the rules test `if (x)` and
 `x || fallback` rather than comparing with null), and thrown values.
 */
module Js {

  /** A value that may be missing (`null` or `undefined` in the source). */
  datatype Option<+T> = None | Some(value: T) {
    function GetOr(default: T): T {
      match this
      case Some(v) => v
      case None => default
    }
  }

  /** Something thrown: `isError` says whether it is an instance of `Error`. */
  datatype Thrown = Thrown(isError: bool, message: string)

  /** A promise that resolves to a value or rejects with a thrown value. */
  datatype Result<+T> = Ok(value: T) | Err(error: Thrown)

  /** A string-valued variable that may be null or undefined is truthy
      exactly when it is present and not the empty string. */
  predicate Truthy(s: Option<string>) {
    s.Some? && s.value != ""
  }

  /** `s || fallback` for an optional string. */
  function OrElse(s: Option<string>, fallback: string): string {
    if Truthy(s) then s.value else fallback
  }

  /** A field of a parsed JSON request body. Numbers are modelled as
      integers; `Object` stands for any array or object. */
  datatype Value = Undefined | Null | Bool(b: bool) | Num(n: int) | Str(s: string) | Object

  /** JavaScript truthiness of a JSON field. */
  predicate IsTruthy(v: Value) {
    match v
    case Undefined => false
    case Null => false
    case Bool(b) => b
    case Num(n) => n != 0
    case Str(s) => s != ""
    case Object => true
  }

  /** `v || null` */
  function OrNull(v: Value): Value {
    if IsTruthy(v) then v else Null
  }
}

=== FILE: manage_user.dfy ===
/**
 The `manage-user` server function: an administrator updates another user's
 profile and role, or deletes another user. The handler is modelled as a
 pure function from the request and the outcomes the backend would give to
 each call, to the HTTP status, the JSON reply and the list of calls
 actually issued, in order: the backend calls and the reading of the
 request body.
 */
module ManageUser {
  import opened Js
  import opened Remote

  /** The authenticated caller. */
  datatype Caller = Caller(id: string)

  /** What `auth.getUser()` with the caller's token reports. */
  datatype AuthLookup = AuthLookup(failed: bool, user: Option<Caller>)

  /** What reading the caller's `user_roles` row with `.single()` reports:
      `failed` covers a read error, no row and several rows; `role` is the
      role column when a row came back. */
  datatype RoleLookup = RoleLookup(failed: bool, role: Option<string>)

  /** The five fields destructured from the JSON body; a field the body
      does not carry (or a body that is a JSON number, string or array) is
      `Undefined`. */
  datatype Body = Body(action: Value, userId: Value, role: Value, departmentId: Value, fullName: Value)

  /** Reading the body either yields its fields or throws (malformed JSON,
      a `null` body that cannot be destructured). */
  datatype Payload = Parsed(body: Body) | Unreadable(error: Thrown)

  /** `verb` is the HTTP method; `authorization` the Authorization header, `None` when absent. */
  datatype Request = Request(verb: string, authorization: Option<string>, payload: Payload)

  /** The outcome the backend gives to each call the handler may issue;
      an outcome is only consulted if its call is issued. */
  datatype Backend = Backend(
    auth: AuthLookup,
    roleLookup: RoleLookup,
    profileUpdate: Outcome,
    roleUpdate: Outcome,
    deletion: Outcome)

  /** A step the handler takes outside itself: a backend call, or `ReadBody`,
      reading the request's JSON body. The last three change data. */
  datatype Call =
    | GetUser
    | ReadRole(callerId: string)
    | ReadBody
    | UpdateProfile(userId: Value, fullName: Value, departmentId: Value)
    | UpdateRole(userId: Value, role: Value, departmentId: Value)
    | DeleteUser(userId: Value)

  predicate IsWrite(c: Call) {
    c.UpdateProfile? || c.UpdateRole? || c.DeleteUser?
  }

  predicate NoWrites(calls: seq<Call>) {
    forall c :: c in calls ==> !IsWrite(c)
  }

  /** The only writes a body can ask for: its user's profile and role, with
      its own name, role and department (`null` for a falsy one), or the
      deletion of its user. */
  function AskedWrites(body: Body): set<Call> {
    var department := OrNull(body.departmentId);
    {UpdateProfile(body.userId, body.fullName, department),
     UpdateRole(body.userId, body.role, department),
     DeleteUser(body.userId)}
  }

  /** The JSON reply: `{ error }` or `{ success: true, message }`. */
  datatype Reply = ErrorReply(error: string) | SuccessReply(message: string)

  /** `reply` is `None` for the preflight answer, which has no body. */
  datatype Response = Response(status: int, reply: Option<Reply>, calls: seq<Call>)

  const NoHeaderMessage := "No authorization header"
  const UnauthorizedMessage := "Unauthorized"
  const ForbiddenMessage := "Only administrators can manage users"
  const UpdatedMessage := "User updated successfully"
  const SelfDeleteMessage := "You cannot delete your own account"
  const DeletedMessage := "User deleted successfully"
  const InvalidActionMessage := "Invalid action"
  const UnexpectedMessage := "An unexpected error occurred"

  /** The gate every data change has to pass: not a preflight, an
      Authorization header, a user behind it and the role `admin`. */
  predicate CallerIsAdmin(req: Request, be: Backend) {
    && req.verb != "OPTIONS"
    && Truthy(req.authorization)
    && !be.auth.failed && be.auth.user.Some?
    && !be.roleLookup.failed && be.roleLookup.role == Some("admin")
  }

  /** The message of the catch-all handler's 500 reply: an `Error`'s own
      message, the generic text for anything else thrown. */
  function CaughtMessage(e: Thrown): string {
    if e.isError then e.message else UnexpectedMessage
  }

  function Answer(status: int, reply: Reply, calls: seq<Call>): Response {
    Response(status, Some(reply), calls)
  }

  /** The catch-all handler's reply to a thrown value. */
  function Crashed(e: Thrown, calls: seq<Call>): Response {
    Answer(500, ErrorReply(CaughtMessage(e)), calls)
  }

  /** The request handler. Whatever the request and the backend's answers:
      only an administrator causes a write, nobody deletes their own
      account, a failed profile write stops the role write, and the status
      is one of the five the function uses. */
  function Handle(req: Request, be: Backend): (r: Response)
    ensures (exists c :: c in r.calls && IsWrite(c)) ==> CallerIsAdmin(req, be)
    ensures forall c :: c in r.calls && c.DeleteUser? ==>
              be.auth.user.Some? && c.userId != Str(be.auth.user.value.id)
    ensures be.profileUpdate.Failed? && (exists c :: c in r.calls && c.UpdateProfile?) ==>
              r.status == 500 && forall c :: c in r.calls ==> !c.UpdateRole?
    ensures r.status in {200, 400, 401, 403, 500}
    ensures forall c :: c in r.calls && IsWrite(c) ==> req.payload.Parsed? && c in AskedWrites(req.payload.body)
    ensures ReadBody in r.calls <==> CallerIsAdmin(req, be)
    ensures r.status == 500 ==> CallerIsAdmin(req, be) && ThrownReply(r, req, be)
  {
    if req.verb == "OPTIONS" then
      Response(200, None, [])
    else if !Truthy(req.authorization) then
      Answer(401, ErrorReply(NoHeaderMessage), [])
    else if be.auth.failed || be.auth.user.None? then
      Answer(401, ErrorReply(UnauthorizedMessage), [GetUser])
    else
      var caller := be.auth.user.value;
      var calls := [GetUser, ReadRole(caller.id)];
      if be.roleLookup.failed || be.roleLookup.role != Some("admin") then
        Answer(403, ErrorReply(ForbiddenMessage), calls)
      else
        match req.payload
        case Unreadable(e) => Crashed(e, calls + [ReadBody])
        case Parsed(body) => Dispatch(caller, body, be, calls + [ReadBody])
  }

  /** The reply ends the request on a write that was issued last and
      failed, and carries the caught message of that write's error. */
  predicate FailedWriteReply(r: Response, be: Backend) {
    && |r.calls| > 0
    && var last := r.calls[|r.calls| - 1];
    || (last.UpdateProfile? && be.profileUpdate.Failed? && r.reply == Some(ErrorReply(CaughtMessage(be.profileUpdate.error))))
    || (last.UpdateRole? && be.roleUpdate.Failed? && r.reply == Some(ErrorReply(CaughtMessage(be.roleUpdate.error))))
    || (last.DeleteUser? && be.deletion.Failed? && r.reply == Some(ErrorReply(CaughtMessage(be.deletion.error))))
  }

  /** A 500 reply carries the caught message of the value the handler threw
      at its last step: the unreadable body's error right after reading it,
      or the error of the write issued last. */
  predicate ThrownReply(r: Response, req: Request, be: Backend) {
    || (req.payload.Unreadable? && |r.calls| > 0 && r.calls[|r.calls| - 1] == ReadBody
        && r.reply == Some(ErrorReply(CaughtMessage(req.payload.error))))
    || FailedWriteReply(r, be)
  }

  /** The admin-only part: choose the action. */
  function Dispatch(caller: Caller, body: Body, be: Backend, calls: seq<Call>): (r: Response)
    requires NoWrites(calls)
    ensures forall c :: c in r.calls && IsWrite(c) ==> c in AskedWrites(body)
    ensures forall c :: c in r.calls && c.DeleteUser? ==> c.userId != Str(caller.id)
    ensures r.status == 500 ==> FailedWriteReply(r, be)
    ensures |calls| <= |r.calls| && r.calls[..|calls|] == calls && ReadBody !in r.calls[|calls|..]
    ensures be.profileUpdate.Failed? && (exists c :: c in r.calls && c.UpdateProfile?) ==>
              r.status == 500 && forall c :: c in r.calls ==> !c.UpdateRole?
  {
    if body.action == Str("update") then
      Update(body, be, calls)
    else if body.action == Str("delete") then
      if body.userId == Str(caller.id) then
        Answer(400, ErrorReply(SelfDeleteMessage), calls)
      else
        var issued := calls + [DeleteUser(body.userId)];
        match be.deletion
        case Done => Answer(200, SuccessReply(DeletedMessage), issued)
        case Failed(e) => Crashed(e, issued)
    else
      Answer(400, ErrorReply(InvalidActionMessage), calls)
  }

  /** The `update` action: the profile write when `fullName` is given,
      then the role write when `role` is truthy. */
  function Update(body: Body, be: Backend, calls: seq<Call>): (r: Response)
    requires NoWrites(calls)
    ensures forall c :: c in r.calls ==> !c.DeleteUser?
    ensures forall c :: c in r.calls && IsWrite(c) ==>
              c == UpdateProfile(body.userId, body.fullName, OrNull(body.departmentId))
              || c == UpdateRole(body.userId, body.role, OrNull(body.departmentId))
    ensures r.status == 500 ==> FailedWriteReply(r, be)
    ensures r.status == 200 || r.status == 500
    ensures r.status == 200 <==>
              !(body.fullName != Undefined && be.profileUpdate.Failed?) && !(IsTruthy(body.role) && be.roleUpdate.Failed?)
    ensures r.status == 200 ==> r.reply == Some(SuccessReply(UpdatedMessage))
    ensures |calls| <= |r.calls| && r.calls[..|calls|] == calls && ReadBody !in r.calls[|calls|..]
    ensures be.profileUpdate.Failed? && (exists c :: c in r.calls && c.UpdateProfile?) ==>
              r.status == 500 && forall c :: c in r.calls ==> !c.UpdateRole?
  {
    var department := OrNull(body.departmentId);
    var profileWrite := UpdateProfile(body.userId, body.fullName, department);
    if body.fullName != Undefined && be.profileUpdate.Failed? then
      Crashed(be.profileUpdate.error, calls + [profileWrite])
    else
      var afterProfile := if body.fullName != Undefined then calls + [profileWrite] else calls;
      if !IsTruthy(body.role) then
        Answer(200, SuccessReply(UpdatedMessage), afterProfile)
      else
        var afterRole := afterProfile + [UpdateRole(body.userId, body.role, department)];
        match be.roleUpdate
        case Done => Answer(200, SuccessReply(UpdatedMessage), afterRole)
        case Failed(e) => Crashed(e, afterRole)
  }

  /** A preflight request is answered 200 with no body and nothing else:
      no authentication, no body read, no write. */
  lemma PreflightHasNoEffect(req: Request, be: Backend)
    requires req.verb == "OPTIONS"
    ensures Handle(req, be) == Response(200, None, [])
  {
  }

  /** A missing or empty Authorization header is refused before any call. */
  lemma MissingHeaderRefused(req: Request, be: Backend)
    requires req.verb != "OPTIONS" && !Truthy(req.authorization)
    ensures Handle(req, be) == Response(401, Some(ErrorReply(NoHeaderMessage)), [])
  {
  }

  /** A token the backend does not accept, or one with no user behind it,
      is refused after the one lookup. */
  lemma UnauthenticatedRefused(req: Request, be: Backend)
    requires req.verb != "OPTIONS" && Truthy(req.authorization)
    requires be.auth.failed || be.auth.user.None?
    ensures Handle(req, be) == Response(401, Some(ErrorReply(UnauthorizedMessage)), [GetUser])
  {
  }

  /** A caller whose role cannot be read or is not `admin` gets 403; the body
      is not read and nothing is written. */
  lemma NonAdminRefused(req: Request, be: Backend)
    requires req.verb != "OPTIONS" && Truthy(req.authorization)
    requires !be.auth.failed && be.auth.user.Some?
    requires be.roleLookup.failed || be.roleLookup.role != Some("admin")
    ensures Handle(req, be).status == 403
    ensures Handle(req, be).reply == Some(ErrorReply(ForbiddenMessage))
    ensures Handle(req, be).calls == [GetUser, ReadRole(be.auth.user.value.id)]
    ensures NoWrites(Handle(req, be).calls)
  {
  }

  /** An admin's `update` writes the profile exactly when `fullName` is
      defined, and the role exactly when `role` is truthy (and no profile
      write failed first); with neither it answers 200 having written
      nothing. Every write targets the body's user and carries the body's
      name, role and department. */
  lemma UpdateWritesWhatIsGiven(req: Request, be: Backend)
    requires CallerIsAdmin(req, be) && req.payload.Parsed?
    requires req.payload.body.action == Str("update")
    ensures var r := Handle(req, be);
            var body := req.payload.body;
            && ((exists c :: c in r.calls && c.UpdateProfile?) <==> body.fullName != Undefined)
            && ((exists c :: c in r.calls && c.UpdateRole?) <==>
                  IsTruthy(body.role) && !(body.fullName != Undefined && be.profileUpdate.Failed?))
            && (body.fullName == Undefined && !IsTruthy(body.role) ==> r.status == 200 && NoWrites(r.calls))
            && (forall c :: c in r.calls && IsWrite(c) ==>
                  c == UpdateProfile(body.userId, body.fullName, OrNull(body.departmentId))
                  || c == UpdateRole(body.userId, body.role, OrNull(body.departmentId)))
  {
    var r := Handle(req, be);
    var body := req.payload.body;
    var department := OrNull(body.departmentId);
    if body.fullName != Undefined {
      assert UpdateProfile(body.userId, body.fullName, department) in r.calls;
    }
    if IsTruthy(body.role) && !(body.fullName != Undefined && be.profileUpdate.Failed?) {
      assert UpdateRole(body.userId, body.role, department) in r.calls;
    }
  }

  /** Both writes store the given department when it is truthy and `null`
      otherwise, never an empty string or another falsy value. */
  lemma FalsyDepartmentStoredAsNull(req: Request, be: Backend)
    requires req.payload.Parsed?
    ensures var d := req.payload.body.departmentId;
            forall c :: c in Handle(req, be).calls && (c.UpdateProfile? || c.UpdateRole?) ==>
              c.departmentId == (if IsTruthy(d) then d else Null)
  {
  }

  /** An admin's `update` in which no issued write fails answers 200
      "User updated successfully"; one in which a write fails answers 500. */
  lemma UpdateSucceedsUnlessAWriteFails(req: Request, be: Backend)
    requires CallerIsAdmin(req, be) && req.payload.Parsed?
    requires req.payload.body.action == Str("update")
    ensures var body := req.payload.body;
            var failed := (body.fullName != Undefined && be.profileUpdate.Failed?) || (IsTruthy(body.role) && be.roleUpdate.Failed?);
            && (!failed ==> Handle(req, be).status == 200 && Handle(req, be).reply == Some(SuccessReply(UpdatedMessage)))
            && (failed ==> Handle(req, be).status == 500)
  {
  }

  /** A failed profile write ends the request with 500 and the error's
      message; the role write is not attempted. */
  lemma ProfileFailureStopsRoleWrite(req: Request, be: Backend)
    requires CallerIsAdmin(req, be) && req.payload.Parsed?
    requires req.payload.body.action == Str("update") && req.payload.body.fullName != Undefined
    requires be.profileUpdate.Failed?
    ensures Handle(req, be).status == 500
    ensures Handle(req, be).reply == Some(ErrorReply(CaughtMessage(be.profileUpdate.error)))
    ensures forall c :: c in Handle(req, be).calls ==> !c.UpdateRole?
  {
  }

  /** An admin asking to delete their own account gets 400 and no deletion
      is attempted. */
  lemma SelfDeleteRefused(req: Request, be: Backend)
    requires CallerIsAdmin(req, be) && req.payload.Parsed?
    requires req.payload.body.action == Str("delete")
    requires req.payload.body.userId == Str(be.auth.user.value.id)
    ensures Handle(req, be).status == 400
    ensures Handle(req, be).reply == Some(ErrorReply(SelfDeleteMessage))
    ensures NoWrites(Handle(req, be).calls)
  {
  }

  /** Deleting another user issues exactly that deletion and answers 200 when
      the backend accepts it. */
  lemma OtherUserDeleted(req: Request, be: Backend)
    requires CallerIsAdmin(req, be) && req.payload.Parsed?
    requires req.payload.body.action == Str("delete")
    requires req.payload.body.userId != Str(be.auth.user.value.id)
    requires be.deletion == Done
    ensures var r := Handle(req, be);
            && r.status == 200 && r.reply == Some(SuccessReply(DeletedMessage))
            && r.calls[|r.calls| - 1] == DeleteUser(req.payload.body.userId)
  {
  }

  /** Any action other than `update` and `delete` is refused with 400 and no
      write. */
  lemma UnknownActionRefused(req: Request, be: Backend)
    requires CallerIsAdmin(req, be) && req.payload.Parsed?
    requires req.payload.body.action != Str("update") && req.payload.body.action != Str("delete")
    ensures Handle(req, be).status == 400
    ensures Handle(req, be).reply == Some(ErrorReply(InvalidActionMessage))
    ensures NoWrites(Handle(req, be).calls)
  {
  }

  /** For an administrator, each thrown value ends the request with 500 and
      its caught message: an unreadable body, a failed role write and a
      failed deletion (a failed profile write is
      `ProfileFailureStopsRoleWrite`). */
  lemma ServerErrorReplies(req: Request, be: Backend)
    requires CallerIsAdmin(req, be)
    ensures req.payload.Unreadable? ==>
              Handle(req, be).status == 500
              && Handle(req, be).reply == Some(ErrorReply(CaughtMessage(req.payload.error)))
    ensures req.payload.Parsed? && req.payload.body.action == Str("update")
            && IsTruthy(req.payload.body.role)
            && !(req.payload.body.fullName != Undefined && be.profileUpdate.Failed?)
            && be.roleUpdate.Failed? ==>
              Handle(req, be).status == 500
              && Handle(req, be).reply == Some(ErrorReply(CaughtMessage(be.roleUpdate.error)))
    ensures req.payload.Parsed? && req.payload.body.action == Str("delete")
            && req.payload.body.userId != Str(be.auth.user.value.id)
            && be.deletion.Failed? ==>
              Handle(req, be).status == 500
              && Handle(req, be).reply == Some(ErrorReply(CaughtMessage(be.deletion.error)))
  {
  }
}

=== FILE: remote.dfy ===
/**
 The shapes of the hosted backend's answers. Every remote call of the
 application is modelled by the answer it would give, passed in as a value.
 */
module Remote {
  import opened Js

  /** A call whose only result is whether it reported an error. */
  datatype Outcome = Done | Failed(error: Thrown)

  /** How a list query ends: with its data (`null` is possible) or an error. */
  datatype QueryResult<T> = Answered(data: Option<seq<T>>) | QueryFailed(error: Thrown)

  /** How an insert that reads back its row ends: the stored row or an error. */
  datatype InsertResult<T> = Inserted(row: T) | InsertFailed(error: Thrown)
}

=== FILE: reports.dfy ===
/**
 The reports hook: listing reports (optionally of one department, newest
 first), creating a report as the signed-in user, and updating or submitting
 one. The signed-in user and every backend answer are parameters.
 */
module Reports {
  import opened Js
  import opened Remote

  datatype ReportStatus = Draft | Pending | InReview | Approved | Rejected | Escalated
  datatype ReportType = Incident | Financial | Performance | General
  datatype Priority = Low | Medium | High | Critical

  /** A point in time. The application only ever produces "now" and stores
      it; the ordering is what the list query sorts by. */
  datatype Timestamp = Timestamp(instant: int)

  /** The department summary the list query joins onto each report. */
  datatype DepartmentSummary = DepartmentSummary(name: string, code: string, color: Option<string>)

  datatype Report = Report(
    id: string,
    title: string,
    description: string,
    reportType: ReportType,
    priority: Priority,
    status: ReportStatus,
    departmentId: string,
    createdBy: string,
    createdAt: Timestamp,
    submittedAt: Option<Timestamp>,
    department: Option<DepartmentSummary>)

  datatype User = User(id: string)

  /** The list query: every report, or one department's when `department`
      is set, newest first. */
  datatype ReportQuery = ReportQuery(department: Option<string>)

  /** A list the backend returns for the query: restricted to the
      department when one is asked for, ordered by creation time, newest
      first. */
  ghost predicate Answers(q: ReportQuery, rows: seq<Report>) {
    && (forall i :: 0 <= i < |rows| && q.department.Some? ==> rows[i].departmentId == q.department.value)
    && (forall i, j :: 0 <= i < j < |rows| ==> rows[i].createdAt.instant >= rows[j].createdAt.instant)
  }

  datatype ReportsState = ReportsState(reports: seq<Report>, loading: bool)

  /** The state after a fetch, and the query it issued (if any). */
  datatype ReportsFetch = ReportsFetch(state: ReportsState, query: Option<ReportQuery>)

  /** `fetchReports`. Signed out: the list is emptied and nothing is
      queried. Signed in: the department filter is added exactly when a
      department is given; the list becomes the answer (`null` read as
      empty), and an error leaves the list as it was. */
  function FetchReports(user: Option<User>, departmentId: Option<string>, st: ReportsState, answer: QueryResult<Report>): (r: ReportsFetch)
    ensures !r.state.loading
    ensures user.None? ==> r == ReportsFetch(ReportsState([], false), None)
    ensures user.Some? ==> r.query.Some?
    ensures r.query.Some? ==> (r.query.value.department.Some? <==> Truthy(departmentId))
    ensures r.query.Some? && Truthy(departmentId) ==> r.query.value.department == departmentId
    ensures user.Some? && answer.QueryFailed? ==> r.state.reports == st.reports
    ensures user.Some? && answer.Answered? ==> r.state.reports == answer.data.GetOr([])
  {
    if user.None? then
      ReportsFetch(ReportsState([], false), None)
    else
      var query := ReportQuery(if Truthy(departmentId) then departmentId else None);
      match answer
      case QueryFailed(_) => ReportsFetch(ReportsState(st.reports, false), Some(query))
      case Answered(data) => ReportsFetch(ReportsState(data.GetOr([]), false), Some(query))
  }

  /** When the backend's answer honours the query the fetch issued, the
      list shown holds only the requested department's reports, newest
      first. */
  lemma FetchedListHonoursQuery(user: Option<User>, departmentId: Option<string>, st: ReportsState, data: Option<seq<Report>>)
    requires user.Some?
    requires Answers(FetchReports(user, departmentId, st, Answered(data)).query.value, data.GetOr([]))
    ensures var r := FetchReports(user, departmentId, st, Answered(data));
            && (forall i :: 0 <= i < |r.state.reports| && Truthy(departmentId) ==>
                  r.state.reports[i].departmentId == departmentId.value)
            && (forall i, j :: 0 <= i < j < |r.state.reports| ==>
                  r.state.reports[i].createdAt.instant >= r.state.reports[j].createdAt.instant)
  {
  }

  /** What the create dialog passes in: every column but the author. */
  datatype NewReport = NewReport(
    title: string,
    description: string,
    reportType: ReportType,
    priority: Priority,
    departmentId: string,
    status: ReportStatus,
    submittedAt: Option<Timestamp>)

  /** The row inserted: the caller's fields and the author. */
  datatype ReportInsert = ReportInsert(fields: NewReport, createdBy: string)

  /** The insert issued, what the call returns, and whether the list was
      fetched again. */
  datatype CreateReportStep = CreateReportStep(insert: Option<ReportInsert>, result: Option<Report>, refetched: bool)

  /** `createReport`: signed out it returns null without inserting; signed
      in it inserts the fields with the user as author, and returns the
      stored row after fetching the list again, or null on an error. */
  function CreateReport(user: Option<User>, fields: NewReport, answer: InsertResult<Report>): (r: CreateReportStep)
    ensures user.None? ==> r == CreateReportStep(None, None, false)
    ensures r.insert.Some? ==> user.Some? && r.insert.value == ReportInsert(fields, user.value.id)
    ensures user.Some? ==> r.insert.Some?
    ensures r.refetched <==> r.result.Some?
    ensures answer.InsertFailed? ==> r.result.None?
    ensures user.Some? && answer.Inserted? ==> r.result == Some(answer.row)
  {
    if user.None? then
      CreateReportStep(None, None, false)
    else
      var insert := Some(ReportInsert(fields, user.value.id));
      match answer
      case InsertFailed(_) => CreateReportStep(insert, None, false)
      case Inserted(row) => CreateReportStep(insert, Some(row), true)
  }

  /** The columns an update changes; `None` leaves a column alone. */
  datatype ReportPatch = ReportPatch(status: Option<ReportStatus>, submittedAt: Option<Timestamp>)

  /** The effect of the patch on one stored report. */
  function ApplyPatch(r: Report, p: ReportPatch): Report {
    r.(status := p.status.GetOr(r.status),
       submittedAt := if p.submittedAt.Some? then p.submittedAt else r.submittedAt)
  }

  /** `.update(patch).eq('id', id)` on the table: the rows with that id are
      patched, the others left alone, the order kept. */
  function UpdateById(rows: seq<Report>, id: string, p: ReportPatch): (r: seq<Report>)
    ensures |r| == |rows|
    ensures forall i :: 0 <= i < |rows| && rows[i].id != id ==> r[i] == rows[i]
    ensures forall i :: 0 <= i < |rows| && rows[i].id == id ==> r[i] == ApplyPatch(rows[i], p)
  {
    seq(|rows|, i requires 0 <= i < |rows| => if rows[i].id == id then ApplyPatch(rows[i], p) else rows[i])
  }

  /** A patch that names no column changes no report. */
  lemma EmptyPatchChangesNothing(rows: seq<Report>, id: string)
    ensures UpdateById(rows, id, ReportPatch(None, None)) == rows
  {
  }

  /** Repeating an update by id changes nothing more. */
  lemma UpdateByIdIdempotent(rows: seq<Report>, id: string, p: ReportPatch)
    ensures UpdateById(UpdateById(rows, id, p), id, p) == UpdateById(rows, id, p)
  {
  }

  /** The update issued, and whether the list was fetched again. The call
      has no result: errors are reported to the user and swallowed. */
  datatype UpdateReportStep = UpdateReportStep(id: string, patch: ReportPatch, refetched: bool)

  /** `updateReport(id, updates)`: the update is issued for that id with the
      caller's patch, whatever the backend then answers; the list is fetched
      again exactly when the update succeeds. */
  function UpdateReport(id: string, p: ReportPatch, answer: Outcome): (r: UpdateReportStep)
    ensures r.id == id && r.patch == p
    ensures r.refetched <==> answer.Done?
  {
    UpdateReportStep(id, p, answer.Done?)
  }

  /** `submitReport(id)`: an update of that report and of exactly the
      status, to pending, and the submission time, to now. */
  function SubmitReport(id: string, now: Timestamp, answer: Outcome): (r: UpdateReportStep)
    ensures r.id == id
    ensures r.patch.status == Some(Pending) && r.patch.submittedAt == Some(now)
    ensures r.refetched <==> answer.Done?
  {
    UpdateReport(id, ReportPatch(Some(Pending), Some(now)), answer)
  }

  /** Submitting a report makes it pending with the submission time set and
      changes nothing else, in that report or any other; the list is
      fetched again exactly when the update succeeds. */
  lemma SubmitChangesOnlyStatusAndTime(rows: seq<Report>, id: string, now: Timestamp, answer: Outcome)
    ensures var step := SubmitReport(id, now, answer);
            var after := UpdateById(rows, step.id, step.patch);
            && (step.refetched <==> answer.Done?)
            && |after| == |rows|
            && (forall i :: 0 <= i < |rows| && rows[i].id == id ==>
                  after[i].status == Pending && after[i].submittedAt == Some(now)
                  && after[i].(status := rows[i].status, submittedAt := rows[i].submittedAt) == rows[i])
            && (forall i :: 0 <= i < |rows| && rows[i].id != id ==> after[i] == rows[i])
  {
  }
}

=== FILE: sidebar.dfy ===
/**
 The application sidebar: the role-dependent main menu, the department
 menu with its links and icons, which entries are highlighted, and the
 avatar fallback letter.
 */
module Sidebar {
  import opened Js
  import Text
  import opened Departments

  datatype Icon =
    | LayoutDashboard | FileText | Bell | UserCog
    | DollarSign | Shield | ShoppingCart | Settings | Users | Monitor | Headphones | Wrench | Truck

  datatype NavItem = NavItem(title: string, url: string, icon: Icon)

  const DashboardItem := NavItem("Dashboard", "/", LayoutDashboard)
  const ReportsItem := NavItem("My Reports", "/reports", FileText)
  const NotificationsItem := NavItem("Notifications", "/notifications", Bell)
  const AdminItem := NavItem("User Management", "/admin", UserCog)

  /** The main menu: the three entries everyone sees, in order, and user
      management last for an administrator only. */
  function MainNavItems(highestRole: Option<string>): (items: seq<NavItem>)
    ensures |items| >= 3 && items[..3] == [DashboardItem, ReportsItem, NotificationsItem]
    ensures AdminItem in items <==> highestRole == Some("admin")
    ensures |items| == 3 || (|items| == 4 && items[3] == AdminItem)
  {
    [DashboardItem, ReportsItem, NotificationsItem] + (if highestRole == Some("admin") then [AdminItem] else [])
  }

  /** An entry is highlighted when the current path is exactly its URL;
      the path then also contains the URL, so the highlight is never
      stricter than the `includes` test of the department group. */
  function IsActive(pathname: string, url: string): (active: bool)
    ensures active <==> pathname == url
    ensures active ==> |pathname| == |url| && Text.Contains(pathname, url)
  {
    Text.ContainsPrefix(pathname, pathname);
    pathname == url
  }

  /** At most one entry of the main menu is highlighted, whatever the path,
      and none while a department page is open. */
  lemma MainMenuHighlightsAtMostOne(pathname: string, highestRole: Option<string>)
    ensures var items := MainNavItems(highestRole);
            forall i, j :: 0 <= i < j < |items| ==> !(IsActive(pathname, items[i].url) && IsActive(pathname, items[j].url))
    ensures forall code, i :: 0 <= i < |MainNavItems(highestRole)| && IsActive(pathname, DepartmentUrl(code)) ==>
              !IsActive(pathname, MainNavItems(highestRole)[i].url)
  {
    var items := MainNavItems(highestRole);
    forall code, i | 0 <= i < |items| && IsActive(pathname, DepartmentUrl(code))
      ensures !IsActive(pathname, items[i].url)
    {
      var url := DepartmentUrl(code);
      assert url[..|DepartmentPrefix|] == DepartmentPrefix;
      assert url[1] == DepartmentPrefix[1] == 'd';
    }
  }

  const DepartmentPrefix := "/department/"

  /** A department's link: the prefix followed by its code in lower case. */
  function DepartmentUrl(code: string): (url: string)
    ensures Text.StartsWith(url, DepartmentPrefix)
    ensures url[|DepartmentPrefix|..] == Text.Lower(code)
  {
    DepartmentPrefix + Text.Lower(code)
  }

  /** Whether the department group opens expanded: the current path
      contains some department's link anywhere in it. */
  function IsDepartmentActive(pathname: string, departments: seq<Department>): (active: bool)
    ensures active <==> exists i :: 0 <= i < |departments| && Text.Contains(pathname, DepartmentUrl(departments[i].code))
  {
    if departments == [] then false
    else
      var rest := IsDepartmentActive(pathname, departments[1..]);
      assert forall i :: 1 <= i < |departments| ==> departments[i] == departments[1..][i - 1];
      Text.Contains(pathname, DepartmentUrl(departments[0].code)) || rest
  }

  /** Being on a department's own page opens the department group. */
  lemma OnDepartmentPageOpensGroup(pathname: string, departments: seq<Department>, i: nat)
    requires i < |departments| && IsActive(pathname, DepartmentUrl(departments[i].code))
    ensures IsDepartmentActive(pathname, departments)
  {
    Text.ContainsPrefix(pathname, pathname);
  }

  /** The two tests differ: a path that merely extends a department's link
      opens the group without highlighting that department. */
  lemma SubstringIsLooserThanExact()
    ensures var finance := Department("1", "Finance", "FIN", None);
            && IsDepartmentActive("/department/finance", [finance])
            && !IsActive("/department/finance", DepartmentUrl(finance.code))
  {
    var url := DepartmentUrl("FIN");
    assert Text.Lower("FIN") == "fin";
    assert url == "/department/fin";
    assert Text.OccursAt("/department/finance", url, 0);
  }

  const DepartmentIcons: map<string, Icon> := map[
    "FIN" := DollarSign, "SAF" := Shield, "PRO" := ShoppingCart, "OPS" := Settings,
    "HR" := Users, "IT" := Monitor, "CS" := Headphones, "ENG" := Wrench, "PEAT" := Truck]

  /** A department's icon, looked up by its code exactly as stored; the
      generic document icon marks exactly the codes without one of their
      own. */
  function DepartmentIcon(code: string): (icon: Icon)
    ensures icon == FileText <==> code !in DepartmentIcons
    ensures code in DepartmentIcons ==> icon == DepartmentIcons[code]
  {
    if code in DepartmentIcons then DepartmentIcons[code] else FileText
  }

  /** The department menu: one entry per department, in the list's order. */
  function DepartmentItems(departments: seq<Department>): (items: seq<NavItem>)
    ensures |items| == |departments|
    ensures forall i :: 0 <= i < |departments| ==>
              items[i] == NavItem(departments[i].name, DepartmentUrl(departments[i].code), DepartmentIcon(departments[i].code))
  {
    seq(|departments|, i requires 0 <= i < |departments| =>
      NavItem(departments[i].name, DepartmentUrl(departments[i].code), DepartmentIcon(departments[i].code)))
  }

  /** The avatar's fallback: the first letter of the user's name in upper
      case, or "U" when the name is missing or empty. */
  function AvatarInitial(fullName: Option<string>): (s: string)
    ensures |s| == 1
    ensures !Truthy(fullName) ==> s == "U"
    ensures Truthy(fullName) ==> s[0] == Text.UpperChar(fullName.value[0])
    ensures !('a' <= s[0] <= 'z')
  {
    if Truthy(fullName) then [Text.UpperChar(fullName.value[0])] else "U"
  }

  /** The name under the avatar: the full name, or "User" when it is
      missing or empty; never empty. */
  function DisplayName(fullName: Option<string>): (name: string)
    ensures Truthy(fullName) ==> name == fullName.value
    ensures !Truthy(fullName) ==> name == "User"
    ensures name != ""
  {
    OrElse(fullName, "User")
  }

  /** The avatar letter is the displayed name's first character in upper
      case, with or without a name on the profile. */
  lemma AvatarMatchesDisplayName(fullName: Option<string>)
    ensures AvatarInitial(fullName) == [Text.UpperChar(DisplayName(fullName)[0])]
  {
  }
}

=== FILE: text.dfy ===
/**
 The string operations the application applies to user input and to codes:
 `String.prototype.trim`, `toLowerCase`/`toUpperCase` and `includes`.
 */
module Text {

  /** The characters `trim` removes: ECMAScript WhiteSpace (tab, vertical tab,
      form feed, byte order mark and every space separator) and
      LineTerminator (line feed, carriage return, U+2028, U+2029). */
  predicate IsSpace(c: char) {
    var n := c as int;
    n == 0x09 || n == 0x0A || n == 0x0B || n == 0x0C || n == 0x0D
    || n == 0x20 || n == 0xA0 || n == 0x1680 || (0x2000 <= n <= 0x200A)
    || n == 0x2028 || n == 0x2029 || n == 0x202F || n == 0x205F
    || n == 0x3000 || n == 0xFEFF
  }

  /** `s` with its leading white space removed: a suffix of `s` that starts
      with a non-space, everything before it being space. */
  function TrimStart(s: string): (r: string)
    ensures |r| <= |s| && r == s[|s| - |r|..]
    ensures r == [] || !IsSpace(r[0])
    ensures forall i :: 0 <= i < |s| - |r| ==> IsSpace(s[i])
  {
    if |s| > 0 && IsSpace(s[0]) then TrimStart(s[1..]) else s
  }

  /** `s` with its trailing white space removed: a prefix of `s` that ends
      with a non-space, everything after it being space. */
  function TrimEnd(s: string): (r: string)
    ensures |r| <= |s| && r == s[..|r|]
    ensures r == [] || !IsSpace(r[|r| - 1])
    ensures forall i :: |r| <= i < |s| ==> IsSpace(s[i])
  {
    if |s| > 0 && IsSpace(s[|s| - 1]) then TrimEnd(s[..|s| - 1]) else s
  }

  /** `s.trim()`: the contiguous part of `s` between its leading and
      trailing white space. */
  function Trim(s: string): (r: string)
    ensures TrimmedAt(s, r, |s| - |TrimStart(s)|)
    ensures r == [] || (!IsSpace(r[0]) && !IsSpace(r[|r| - 1]))
  {
    var t := TrimStart(s);
    var r := TrimEnd(t);
    TrimmedInside(s, t, r);
    r
  }

  /** Trimming the start and then the end of what is left leaves a part of
      `s` with only white space around it. */
  lemma TrimmedInside(s: string, t: string, r: string)
    requires |t| <= |s| && t == s[|s| - |t|..]
    requires forall i :: 0 <= i < |s| - |t| ==> IsSpace(s[i])
    requires |r| <= |t| && r == t[..|r|]
    requires forall i :: |r| <= i < |t| ==> IsSpace(t[i])
    ensures TrimmedAt(s, r, |s| - |t|)
  {
    var k := |s| - |t|;
    forall i | k + |r| <= i < |s|
      ensures IsSpace(s[i])
    {
      assert s[i] == t[i - k];
    }
    assert r == s[k..k + |r|];
  }

  /** `r` is the part of `s` that starts at index `k`. */
  ghost predicate SliceAt(s: string, r: string, k: nat) {
    k + |r| <= |s| && r == s[k..k + |r|]
  }

  /** `r` is the part of `s` that starts at index `k`, and everything of `s`
      before and after it is white space. */
  ghost predicate TrimmedAt(s: string, r: string, k: nat) {
    && SliceAt(s, r, k)
    && (forall i :: 0 <= i < k ==> IsSpace(s[i]))
    && (forall i :: k + |r| <= i < |s| ==> IsSpace(s[i]))
  }

  /** `!s.trim()`: the input is empty once trimmed. */
  predicate IsBlank(s: string) {
    Trim(s) == []
  }

  /** A string is blank exactly when every one of its characters is white space. */
  lemma BlankIffAllSpace(s: string)
    ensures IsBlank(s) <==> forall i :: 0 <= i < |s| ==> IsSpace(s[i])
  {
    var t := TrimStart(s);
    if IsBlank(s) {
      assert TrimEnd(t) == [];
      assert t == [];
    } else {
      var r := Trim(s);
      var k := |s| - |TrimStart(s)|;
      assert s[k] == r[0] && !IsSpace(s[k]);
    }
  }

  /** Trimming an already trimmed string changes nothing. */
  lemma TrimIdempotent(s: string)
    ensures Trim(Trim(s)) == Trim(s)
  {
    var r := Trim(s);
    if r != [] {
      assert !IsSpace(r[0]);
      assert TrimStart(r) == r;
      assert !IsSpace(r[|r| - 1]);
      assert TrimEnd(r) == r;
    }
  }

  /** `c.toLowerCase()` for ASCII letters. */
  function LowerChar(c: char): char {
    if 'A' <= c <= 'Z' then (c as int + 32) as char else c
  }

  /** `c.toUpperCase()` for ASCII letters. */
  function UpperChar(c: char): char {
    if 'a' <= c <= 'z' then (c as int - 32) as char else c
  }

  /** `s.toLowerCase()`: each character mapped on its own. */
  function Lower(s: string): (r: string)
    ensures |r| == |s|
    ensures forall i :: 0 <= i < |s| ==> r[i] == LowerChar(s[i])
  {
    seq(|s|, i requires 0 <= i < |s| => LowerChar(s[i]))
  }

  /** Lower-casing twice is lower-casing once. */
  lemma LowerIdempotent(s: string)
    ensures Lower(Lower(s)) == Lower(s)
  {
  }

  /** `s.startsWith(p)` */
  predicate StartsWith(s: string, p: string) {
    |p| <= |s| && s[..|p|] == p
  }

  /** `sub` occurs in `s` starting at index `i`. */
  ghost predicate OccursAt(s: string, sub: string, i: nat) {
    i + |sub| <= |s| && s[i..i + |sub|] == sub
  }

  /** `s.includes(sub)`: `sub` occurs somewhere in `s`. */
  function Contains(s: string, sub: string): (r: bool)
    ensures r <==> exists i: nat :: i <= |s| && OccursAt(s, sub, i)
    decreases |s|
  {
    if StartsWith(s, sub) then
      assert OccursAt(s, sub, 0);
      true
    else if |s| == 0 then
      false
    else
      var rest := Contains(s[1..], sub);
      forall i: nat | 1 <= i && OccursAt(s, sub, i)
        ensures OccursAt(s[1..], sub, i - 1)
      {
        assert s[1..][i - 1..i - 1 + |sub|] == s[i..i + |sub|];
      }
      forall i: nat | OccursAt(s[1..], sub, i)
        ensures OccursAt(s, sub, i + 1)
      {
        assert s[1..][i..i + |sub|] == s[i + 1..i + 1 + |sub|];
      }
      rest
  }

  /** A string contains every one of its own prefixes, in particular itself. */
  lemma ContainsPrefix(s: string, p: string)
    requires StartsWith(s, p)
    ensures Contains(s, p)
  {
    assert OccursAt(s, p, 0);
  }
}

=== FILE: ui.dfy ===
/** What the screens show the user besides their own state. */
module Ui {

  /** A toast notification; `destructive` is the error styling. */
  datatype Toast = Toast(title: string, description: string, destructive: bool)
}
